=== FILE: README.md ===
# Frequent and Snail: call-counting probes, modelled in Dafny

Frequent (`lib/frequent.rb`) counts how often a Ruby method is called.
`Frequent.instrument("Owner#member")` (an instance method) or
`Frequent.instrument("Owner.member")` (a method of the owner's singleton
class) creates a *probe*. When the member already exists, the probe is
*enabled* on the spot:
- the member is aliased to `__frequent_original_<member>`;
- a wrapper is defined in its place. The wrapper increments the probe's `calls` and sends the call on to the alias.

When the member does not exist yet, `Deferred.enable!` installs three hooks on
`Module`: `method_added`, `singleton_method_added` and `included`. These hooks
place the probe once the member is defined. With a block, `instrument` runs
the block, then disables the probe and forgets its name. Snail
(`lib/snail.rb`) is the same library under other names:
- `instrument`/`uninstrument` for `enable!`/`disable!`;
- `placed?` for `enabled?`;
- `placeable?` for `ready?`;
- the alias prefix `__snail_original_`.

The model replaces Ruby's reflection with an explicit world
(`Lifecycle.World`):
- the constant namespace: a graph of modules with their display names;
- one method table, keyed by owner, kind and member name;
- the probe objects and the registry, an insertion-ordered Hash from name to probe;
- the probes whose `enable!` is in progress;
- which hooks are installed.

Calls are run by `Methods.Invoke`, a stack of bounded depth. It returns the
result and the trace of methods entered, and each frame records the probe its
wrapper counted. The two libraries share one lifecycle, parameterised by the
alias prefix (`Lifecycle.Library`).

Modules:
- `Base`: `Option`, `Result` and the Ruby exceptions raised.
- `Text`: `split('::')`.
- `ProbeNames`: `parse_name`.
- `Constants`: `constantize` and constant assignment.
- `Methods`: method tables, wrappers, calls, and transparency of a wrapper.
- `Registry`: the `probes` Hash.
- `Lifecycle`: probes, hooks and `instrument`.
- `Properties`: what the lifecycle promises.
- `Frequent` and `Snail`: the two libraries.

Where the code does something a caller might not expect, the model follows the
code:
- `disable!` never resets `@enabled`. A second `disable!` defines the original again and then raises `NameError`, because the alias is gone (`Properties.DisableTwiceRaises`).
- The original is put back with `define_method`, which makes it public: a private or protected member does not get its visibility back (`Properties.EnableDisable`, `Properties.PrivateBecomesPublic`).
- `enable!` does not check `enabled?`. The `included` hook selects the ready probes first and enables them afterwards without checking again. Two probes on one member (the same name instrumented twice, or `Foo#bar` and `::Foo#bar`) leave the alias slot holding the first wrapper, which sends to itself (`Properties.SecondProbeLoops`).
- The hooks look probes up by the exact string `"#{owner}##{member}"`. A probe is placed by a later definition only when its name is written the way Ruby prints the owner (`Properties.CanonicalNameMatches`).

## Model

| member | source | states |
|---|---|---|
| ProbeNames.ParseName | lib/frequent.rb:106-113 | fails with `ProbeNameError(name)` exactly when the name has no `.` or `#`; otherwise the owner, separator and member re-assemble the matched line, the member part has no separator, and for a one-line name `#` selects the instance kind |
| ProbeNames.MatchedLine | lib/frequent.rb:107 | the regular expression matches the line holding the first separator: no line feed inside, bounded by line feeds or the ends, and no separator before it |
| ProbeNames.LastSep | lib/frequent.rb:107 | the greedy first group ends at the last separator of the matched line |
| ProbeNames.SplitAt | lib/frequent.rb:109-112 | the three groups re-assemble the matched text, and the member part has no separator when the split is at the last one |
| ProbeNames.FirstSep | lib/frequent.rb:107 | the first separator of a name that has one: no separator before it |
| ProbeNames.LineStart | lib/frequent.rb:107 | `.` does not match a line feed: the match cannot start before the line start |
| ProbeNames.LineEnd | lib/frequent.rb:107 | the match cannot extend past the line end |
| ProbeNames.LineHasSep | lib/frequent.rb:107-108 | a line holding a separator has a position with one, so `md` is not `nil` |
| ProbeNames.ParseDisplay | lib/frequent.rb:106-113 | round trip: a target whose member has no separator and no line feed is parsed back from `Owner#member` / `Owner.member`, even when the owner holds `.`, `#` or `::` |
| ProbeNames.LavaMonsterRejected | spec/frequent_spec.rb:34-36 | `Lava$monster` raises `ProbeNameError` |
| ProbeNames.LavaMonsterHasNoSep | spec/frequent_spec.rb:35 | `Lava$monster` has neither separator |
| Text.SplitScopes | lib/frequent.rb:19 | the `::` fields of a name; there is always at least one |
| Text.JoinSplitScopes | lib/frequent.rb:19 | joining the fields with `::` gives the name back |
| Text.SplitScopesFieldsFree | lib/frequent.rb:19 | no field contains `::` |
| Text.JoinSplitPrefix | lib/frequent.rb:19 | the first field is a prefix of the name |
| Text.SplitScopeFree | lib/frequent.rb:19 | a name without `::` is a single field |
| Text.DropTrailingEmpty | lib/frequent.rb:19 | `split` drops exactly the trailing empty fields: the result is a prefix, ends non-empty, and everything dropped is empty |
| Text.RubySplitScopes | lib/frequent.rb:19 | `split('::')` keeps the fields up to the last non-empty one and drops only empty fields; a non-empty name without `::` is its only field |
| Constants.Walk | lib/frequent.rb:22-26 | the walk yields the starting module or a module some constant names, and succeeds only if the first segment is defined where it starts |
| Constants.Constantize | lib/frequent.rb:18-28 | `constantize` yields `Object` or a module some constant names; a name with no segments (`""`, `"::"`) yields `Object` |
| Constants.WalkSnoc | lib/frequent.rb:22-26 | one more path segment takes one more `const_defined?`/`const_get` step, or fails there |
| Constants.WalkNoneIff | lib/frequent.rb:22-26 | resolution yields `nil` exactly when some segment is undefined in the module the previous segments reach |
| Constants.ConstantizeNoneIff | lib/frequent.rb:18-28 | `constantize` returns `nil` exactly at a first missing segment |
| Constants.RootedNameSameConstant | lib/frequent.rb:20 | `::Name` names the same constant as `Name` |
| Constants.ConstantizeLoop | lib/frequent.rb:18-28 | the `until names.empty?` loop computes `constantize` and returns `nil` exactly at a first missing segment |
| Constants.Assign | spec/frequent_spec.rb:161-170 | `N = mod` binds the constant, keeps every existing module name, and names an anonymous module after its first top-level constant |
| Constants.AssignResolves | spec/frequent_spec.rb:173-182 | after `class Dummy7` at the top level, `constantize("Dummy7")` finds it |
| Methods.InvokeTrace | lib/frequent.rb:82-85 | a call enters at most `depth` methods, each frame is a defined slot with the probe its implementation counts, and a returning call starts at the called slot |
| Methods.Invoke | lib/frequent.rb:82-85 | a call enters no more methods than the stack allows, and a call that returns was to a defined method, entered first |
| Methods.UnwrappedNotCounted | lib/frequent.rb:48-50 | a probe with no wrapper in the table is never counted |
| Methods.CountsConcat | lib/frequent.rb:83 | counts along consecutive traces add up |
| Methods.HitsNone | lib/frequent.rb:83 | a trace with no frame of a probe counts it zero times |
| Methods.InstallUndone | lib/frequent.rb:95-96 | defining the captured original on the member again and removing the alias gives back the table before `enable!`, with the member public |
| Methods.RestoredUnwrapped | lib/frequent.rb:95 | putting an implementation back on its own slot creates no wrapper of the probe |
| Methods.ExpandCounts | lib/frequent.rb:83 | in the expanded trace the probe gains one count per entry into the member, the alias one entry per entry, and nothing else changes |
| Methods.AtKeyDone | lib/frequent.rb:82-85 | entering the wrapped member whose body returns: same value, wrapper frame then alias frame |
| Methods.AtKeyForward | lib/frequent.rb:82-85 | entering the wrapped member whose body calls on: same result, trace expanded |
| Methods.ElsewhereDone | lib/frequent.rb:80-86 | a returning method other than the member behaves as before |
| Methods.ElsewhereForward | lib/frequent.rb:80-86 | a calling method other than the member behaves as before, with its nested trace expanded |
| Methods.TransparentAtKey | lib/frequent.rb:80-86 | a returning call of the member returns the same after the wrapper is installed, on a stack twice as deep |
| Methods.TransparentElsewhere | lib/frequent.rb:80-86 | the same for calls that start at any other method |
| Methods.TransparentAll | lib/frequent.rb:80-86 | any returning call returns the same after installation, with the trace expanded |
| Methods.InstallTransparent | lib/frequent.rb:80-86 | the wrapper is transparent: same result, the probe counts every entry into the member, and no other probe's count changes |
| Methods.CountdownEntries | spec/frequent_spec.rb:10-13 | `recursive_class_method(n)` enters itself `n` times and returns |
| Methods.RecursionCounted | spec/frequent_spec.rb:94-98 | a recursion of depth 7 through the wrapper counts 7 calls |
| Methods.SelfDelegationExhausts | lib/frequent.rb:82-85 | a wrapper whose alias slot holds a wrapper sending to that alias raises `SystemStackError` |
| Methods.DoubleInstallExhausts | lib/frequent.rb:80-86 | installing a second wrapper on a wrapped member makes every call exhaust the stack |
| Registry.Lookup | lib/frequent.rb:120 | `probes[name]` is `nil` exactly when no slot has the name; otherwise a slot maps the name to the result |
| Registry.Store | lib/frequent.rb:8 | a new name is appended; an existing one keeps its place |
| Registry.Delete | lib/frequent.rb:13 | no slot of the deleted name is left, every remaining slot is an old one, and every slot of another name remains |
| Registry.Values | lib/frequent.rb:136 | `probes.values` in insertion order |
| Registry.LookupAsMap | lib/frequent.rb:30-32 | lookup agrees with the Hash seen as a map |
| Registry.StoreLookup | lib/frequent.rb:8 | after `probes[name] = v` the name maps to `v` and every other name is unchanged |
| Registry.DeleteLookup | lib/frequent.rb:13 | after `probes.delete(name)` the name is absent and every other name is unchanged |
| Registry.StoreNames | lib/frequent.rb:8 | storing adds exactly the stored name |
| Registry.StoreDistinct | lib/frequent.rb:8 | storing keeps names distinct |
| Registry.DeleteDistinct | lib/frequent.rb:13 | deleting keeps names distinct |
| Registry.StoreAsMap | lib/frequent.rb:8 | storing is the map update |
| Registry.DeleteAsMap | lib/frequent.rb:13 | deleting is the map removal |
| Registry.StoreDeleteFresh | lib/frequent.rb:8-13 | storing a new name and deleting it restores the Hash |
| Registry.StoreThenDelete | lib/frequent.rb:8-13 | storing a name and deleting it leaves the name absent and every other name as before; a new name leaves the Hash as it was |
| Registry.StoreSlots | lib/frequent.rb:8 | every slot after storing is the new one or an old one |
| Registry.DeleteSlots | lib/frequent.rb:13 | every slot after deleting is an old one |
| Lifecycle.AliasName | lib/frequent.rb:102-104 | the alias is the prefix followed by the member, so it is never the member itself |
| Lifecycle.Enable | lib/frequent.rb:74-90 | placing probes only grows the table and enables probes, and keeps counts, registry, hooks and namespace; a probe not already mid-`enable!` whose target is defined ends enabled |
| Lifecycle.EnableFinishes | lib/frequent.rb:77-88 | setting `@enabled` and clearing `@enabling` after the two events enables the probe and leaves every other probe as the events left it |
| Lifecycle.Fire | lib/frequent.rb:127-133 | a method-added event changes nothing but the table and enablement |
| Lifecycle.PlaceByName | lib/frequent.rb:119-122 | the same for `place_by_name` |
| Lifecycle.IdleShrinks | lib/frequent.rb:75-76 | setting `@enabling` shrinks the set of probes that can still start `enable!`, so placement terminates |
| Lifecycle.EnableHooks | lib/frequent.rb:124-140 | afterwards all three hooks are installed; nothing but the table and enablement changes; a second call does nothing |
| Lifecycle.Selected | lib/frequent.rb:136 | `select(&:ready?)` keeps exactly the ready probes, only from the list |
| Lifecycle.EnableEach | lib/frequent.rb:136 | `each(&:enable!)` enables every listed probe whose target is defined |
| Lifecycle.IncludedHook | lib/frequent.rb:135-137 | including a module enables every registered probe that was ready |
| Lifecycle.Disable | lib/frequent.rb:92-100 | a probe that is not enabled is left alone; on success the alias slot is gone and the member slot exists; probes, counts, registry and hooks are kept |
| Lifecycle.Call | lib/frequent.rb:82-85 | a call changes only counts, which never decrease; a private or protected member is reachable only by `send`; a probe with no wrapper is not counted |
| Lifecycle.Step | lib/frequent.rb:11 | defining, assigning, including or calling keeps the probes and the registry; a call step is `Call` |
| Lifecycle.Run | lib/frequent.rb:11 | a block keeps the probes, their enablement and the registry |
| Lifecycle.Construct | lib/frequent.rb:40-46 | `Probe.new` raises `ProbeNameError` exactly when the name has no separator; otherwise a fresh probe with 0 calls, the parsed target and the name, not yet registered |
| Lifecycle.Begin | lib/frequent.rb:7-9 | the new probe is registered under its name; the hooks are left alone when `Probe.new` enabled it and are all installed when it did not |
| Lifecycle.Scoped | lib/frequent.rb:10-14 | after a block that returns, the enabled probe's member is defined again and its alias is gone, and the name is unregistered; a raising block leaves the registry as it was |
| Lifecycle.Instrument | lib/frequent.rb:6-16 | raises `ProbeNameError(name)` exactly when the name has no separator, and otherwise returns without a block; the probe is fresh; the hooks follow `enabled?` at creation; without a block the name maps to the probe; with one the name is stored, then deleted, and the member is restored with its alias removed |
| Properties.FireQuiet | lib/frequent.rb:119-122 | an event whose registered probe is absent, enabled or mid-`enable!` changes nothing |
| Properties.EnableInstalls | lib/frequent.rb:74-90 | undisturbed `enable!` is exactly the alias, the wrapper and the recorded original |
| Properties.EnableCounts | lib/frequent.rb:80-86 | after `enable!` a returning call returns the same value; the probe counts each entry into the member; other probes' counts are unchanged |
| Properties.CallSucceeds | lib/frequent.rb:82-85 | unfolding step of `Call`: a reachable, returning call adds every wrapper hit to the counts |
| Properties.OthersCountAlike | lib/frequent.rb:83 | equal hits for other probes give equal counts |
| Properties.PrivateBecomesPublic | lib/frequent.rb:82 | a private or protected member cannot be called from outside before `enable!`, and its wrapper is public |
| Properties.QuietAfterEnable | lib/frequent.rb:87 | events quiet before `enable!` stay quiet after it |
| Properties.EnableDisable | lib/frequent.rb:92-100 | `disable!` after `enable!` gives back the original table, with the member made public |
| Properties.DisableTwiceRaises | lib/frequent.rb:92-100 | a second `disable!` raises `NameError` for the alias |
| Properties.DisabledNotCounted | spec/frequent_spec.rb:102-116 | after `disable!` no call counts the probe |
| Properties.PlaceByNameAbsent | lib/frequent.rb:120-121 | `place_by_name` of an unregistered name does nothing |
| Properties.PlaceByNamePlaces | lib/frequent.rb:119-122 | `place_by_name` enables the probe registered under that name when its target is defined, and does nothing when it is not ready |
| Properties.DefinitionPlaces | lib/frequent.rb:127-133 | defining the member of a deferred probe, once hooks are on, enables the probe registered under the event's name |
| Properties.DefinitionWraps | lib/frequent.rb:127-129 | for a disabled probe with a quiet alias event, defining its member is the plain definition followed by an undisturbed `enable!`: the wrapper is in the slot and the new body in the alias |
| Properties.CanonicalNameMatches | lib/frequent.rb:128 | the event name equals the probe name when the owner is written as Ruby prints it |
| Properties.IncludeEnablesReady | spec/frequent_spec.rb:128-141 | `include` with hooks on enables each registered probe that was ready |
| Properties.ConstructFresh | lib/frequent.rb:45 | a new probe is enabled exactly when its target is already defined |
| Properties.SameProbesValid | lib/frequent.rb:8-13 | operations that keep probes and registry keep the invariant |
| Properties.RunValid | lib/frequent.rb:11 | a block keeps the invariant, also when it raises |
| Properties.BeginValid | lib/frequent.rb:7-9 | creating and registering a probe keeps the invariant |
| Properties.RegisterValid | lib/frequent.rb:8 | one more registered probe under its own name keeps the invariant |
| Properties.DeleteValid | lib/frequent.rb:13 | unregistering a name keeps the invariant |
| Properties.ScopedValid | lib/frequent.rb:10-14 | the block part of `instrument` keeps the invariant |
| Properties.InstrumentValid | lib/frequent.rb:6-16 | `instrument` keeps the invariant: no `enable!` mid-flight, distinct registered names each naming a probe of that name |
| Properties.InstrumentBlockUnregisters | lib/frequent.rb:10-14 | after a block the name is unregistered, together with any older probe of that name; other names are untouched; a new name leaves the Hash as it was |
| Properties.SecondProbeLoops | lib/frequent.rb:74-90 | a second probe on an enabled member makes every call of it raise `SystemStackError` |
| Properties.CallThroughWrapper | lib/frequent.rb:82-85 | one call through a wrapper whose alias returns counts once and leaves the table |
| Properties.TimesCounted | spec/frequent_spec.rb:40-44 | `n.times` through a wrapper counts `n` |
| Properties.ConstructEnables | lib/frequent.rb:40-46 | `Probe.new` of a defined member with quiet events returns the enabled probe |
| Properties.InstrumentEnabledAtOnce | lib/frequent.rb:6-9 | such a probe is registered and the hooks are untouched |
| Properties.EnableHooksQuiet | lib/frequent.rb:124-140 | with nothing registered under the hooks' own names, `Deferred.enable!` installs the three hooks and changes nothing else |
| Properties.InstrumentDeferred | lib/frequent.rb:7-9 | a probe whose member is not defined yet stays disabled, is registered, and the hooks are installed |
| Properties.BeginEnabledAtOnce | lib/frequent.rb:7-9 | for a probe enabled while it is created, the part before the block is the undisturbed `enable!` plus registration |
| Properties.RunRepeated | spec/frequent_spec.rb:120 | a block of `n` identical calls runs as those `n` calls, stopping at the first exception |
| Properties.QuietRegistered | lib/frequent.rb:8 | registering the probe under its name cannot make an event place another probe |
| Properties.DisableRestores | lib/frequent.rb:92-100 | `disable!` with a quiet event puts the kept original back as public and removes the alias, and returns |
| Properties.ScopedOk | lib/frequent.rb:10-14 | unfolding step of `Scoped`: a block and `disable!` that both return leave the name unregistered |
| Properties.InstrumentBlockOk | lib/frequent.rb:6-16 | unfolding step of `Instrument`: when both parts return, `instrument` with a block returns the probe and the world after its block |
| Properties.BlockRestores | lib/frequent.rb:10-14 | a block of `n` calls through the wrapper counts `n`, then the table is the one before `enable!` with the member public, and no wrapper of the probe remains |
| Properties.EventNameParses | lib/frequent.rb:106-113 | `parse_name` reads the hook's name back as the owner's printed name, the kind and the member |
| Frequent.InstrumentedCallsCounted | spec/frequent_spec.rb:40-44 | `instrument` then `n` calls of the member leave the probe's `calls` at `n`, for public, private and singleton members alike |
| Frequent.ScopedCallsCounted | spec/frequent_spec.rb:118-124 | `instrument` with a block of `n` calls counts `n`; afterwards the table is the original with the member public, and no call changes the probe |
| Frequent.DeferredCallsCounted | spec/frequent_spec.rb:173-182 | `instrument` before the member exists, then defining it, then `n` calls leave the probe's `calls` at `n` |
| Snail.TargetDefinedChecked | lib/snail.rb:63-68 | Snail's `target_defined?` raises exactly when the owner does not resolve, and otherwise answers whether the member is defined |
| Snail.Placeable | lib/snail.rb:53-55 | Snail's `placeable?` is Frequent's `ready?` |
| Snail.AliasesApart | lib/snail.rb:99-101 | a Snail alias is never the member, nor any Frequent alias |

## Left out

- `COUNT_CALLS_TO` and `at_exit` (lib/frequent.rb:144-147, lib/snail.rb:141-144): these are environment and process I/O.
- Inheritance and ancestors: `include` runs the `included` hook but adds no methods to the host, and calls resolve only in the named owner's table. So `RedPotato`'s override, the `Dummy3` include test and calls through an including class are not reproduced.
- `Deferred.enable!` (lib/frequent.rb:124-140) does not write the three hook methods into `Module`'s method table. In Ruby it would overwrite a wrapper already on one of them, and a probe on one of them would then see its target defined; the model keeps the table as it was.
- A module that defines its own `self.included` or `method_added` and shadows the hooks is not modelled.
- `const_defined?` raises `NameError` for strings that are not constant names; the model treats such a segment as undefined.
- `const_defined?(n)` also finds constants of ancestors, but `const_get(n, false)` does not (lib/frequent.rb:24-25), so Ruby raises `NameError` for a constant reachable only through an included module. The model has one constant table per module and no ancestors, so this case cannot arise.
- Constants.Constantize: a constant can only be bound to a module, so a constant holding another value (`VERSION = 0.1`, lib/frequent.rb:2) cannot be written down, and `constantize` never raises. In Ruby a probe whose owner resolves to such a value raises while it is created, before anything is registered: `NoMethodError` from `method_defined?` for `#` (lib/frequent.rb:69), `TypeError` from `singleton_class` for `.` (lib/frequent.rb:63). A further segment after such a value makes `constantize` itself raise `NoMethodError` at `const_defined?` (lib/frequent.rb:24). Snail does the same (lib/snail.rb:54-66). Constants.ConstantizeNoneIff holds over this modules-only namespace.
- An anonymous module prints as `#<Module>` instead of `#<Class:0x…>`.
- Lifecycle.Enable: when the owner does not resolve, Ruby raises `NoMethodError` on `nil`; when the owner resolves but the member is absent, `instance_method` raises `NameError` (lib/frequent.rb:77). In both cases Ruby leaves `@enabling` set. The model leaves the world unchanged instead, because every caller checks `ready?` first.
- Lifecycle.Disable: raises `TypeError` whenever the constant now names another module. Ruby raises it only when the original was taken from a class and the new owner is not a subclass of that class; a method taken from a module can be defined in any module. The model has no class/module distinction and no subclass relation.
- Visibility is a tag on each entry, checked only at the outermost call.
- Calls nested inside method bodies are limited to calls on the same receiver. Positional arguments and blocks are passed through opaquely; keyword arguments are not represented (see the Methods.InstallTransparent line).
- The stack depth is a parameter. Lifecycle.Call does not model how Ruby counts frames, only that the depth is bounded.
- Threads, `eval`, `tainted?`, benchmarks, and Frequent and Snail loaded together are not modelled.
- A nested `instrument` inside a block is not an action.
- Methods.InstallTransparent: a program body either returns or calls on, never raises, so transparency is proved only for calls that return. That an exception from the original passes through the wrapper, after the count, is not modelled. A body makes at most one nested call, in tail position, and returns its result unchanged: it cannot call twice, compute after a call or yield to its block, so InstallTransparent, TransparentAll and EnableCounts cover only such call chains. `Args` holds positional arguments and a block, with no keyword arguments. The wrapper's `|*args, &blk|` (lib/frequent.rb:82-85) is not marked `ruby2_keywords`, so on Ruby 3 keywords reach the alias as a positional Hash and a member that takes keywords raises `ArgumentError` through the wrapper. The same result is not promised for such members.
- Properties.EnableCounts: states transparency only for calls that return, and needs a stack twice as deep, because the wrapper adds a frame per entry.

=== FILE: base.dfy ===
/** Failure-carrying wrappers shared by every module of the model. */
module Base {

  /** A value that may be absent; Ruby's `nil` where a lookup finds nothing. */
  datatype Option<+T> = None | Some(value: T)

  /** The outcome of a computation that either succeeds or raises. */
  datatype Result<+T, +E> = Success(value: T) | Failure(error: E)

  /** The exceptions the modelled Ruby code can raise. */
  datatype RubyError =
    | ProbeNameError(probeName: string)   // parse_name found no `.` or `#`
    | NameError(member: string)           // remove_method of a missing method
    | NoMethodError(member: string)       // nil receiver, or no such method
    | SystemStackError                    // call depth exceeded the stack limit
    | TypeError                           // define_method with a method of another module
}

=== FILE: constants.dfy ===
/**
 * The constant namespace and `constantize`.  Modules are identified by
 * `ModId`; the constant table maps (scope, constant name) to a module, so a
 * module may be reachable under several paths (Object::Object is Object).
 */
module Constants {
  import opened Base
  import opened Text

  type ModId = nat

  /** The root of the namespace, Ruby's `Object`. */
  const ObjectModule: ModId := 0

  /** How a module without a name prints (Ruby shows `#<Class:0x…>`). */
  const AnonymousName: string := "#<Module>"

  datatype Universe = Universe(
    consts: map<(ModId, string), ModId>,   // `const_defined?` / `const_get(n, false)`
    names: map<ModId, string>)             // `Module#to_s` of named modules

  /** `"#{self}"` for a module. */
  function ModuleName(u: Universe, m: ModId): string
  {
    if m in u.names then u.names[m] else AnonymousName
  }

  /** The constant path of a name: its `::` fields, one leading `""` dropped. */
  function ConstPath(name: string): (path: seq<string>)
    ensures var s := RubySplitScopes(name); |s| > 0 && s[0] == "" ==> [""] + path == s
    ensures var s := RubySplitScopes(name); !(|s| > 0 && s[0] == "") ==> path == s
  {
    var names := RubySplitScopes(name);
    if |names| > 0 && names[0] == "" then names[1..] else names
  }

  /** Resolves `segs` one constant at a time starting from module `from`. */
  function Walk(u: Universe, from: ModId, segs: seq<string>): (r: Option<ModId>)
    ensures r.Some? ==> r.value == from || r.value in u.consts.Values
    ensures r.Some? && |segs| > 0 ==> (from, segs[0]) in u.consts
    decreases |segs|
  {
    if |segs| == 0 then Some(from)
    else if (from, segs[0]) !in u.consts then None
    else Walk(u, u.consts[(from, segs[0])], segs[1..])
  }

  /** `constantize`: the module a constant path names, or `nil`. */
  function Constantize(u: Universe, name: string): (r: Option<ModId>)
    ensures r.Some? ==> r.value == ObjectModule || r.value in u.consts.Values
    ensures ConstPath(name) == [] ==> r == Some(ObjectModule)
  {
    Walk(u, ObjectModule, ConstPath(name))
  }

  /**
   * `scope.const_set(n, m)` (`N = m` inside `scope`): binds the constant and,
   * as Ruby does on a module's first assignment, names an anonymous module
   * after the constant when the scope itself is `Object` or named.
   */
  function Assign(u: Universe, scope: ModId, n: string, m: ModId): (r: Universe)
    ensures r.consts == u.consts[(scope, n) := m]
    ensures forall k :: k in u.names ==> k in r.names && r.names[k] == u.names[k]
    ensures m !in u.names && scope == ObjectModule ==> ModuleName(r, m) == n
  {
    if m in u.names || (scope != ObjectModule && scope !in u.names) then u.(consts := u.consts[(scope, n) := m])
    else
      var full := if scope == ObjectModule then n else u.names[scope] + "::" + n;
      Universe(u.consts[(scope, n) := m], u.names[m := full])
  }

  /** After `N = m` at the top level, `constantize("N")` finds `m`. */
  lemma AssignResolves(u: Universe, n: string, m: ModId)
    requires n != "" && ScopeFree(n)
    ensures Constantize(Assign(u, ObjectModule, n, m), n) == Some(m)
  {
    SplitScopeFree(n);
    assert RubySplitScopes(n) == [n];
    assert ConstPath(n) == [n];
    var r := Assign(u, ObjectModule, n, m);
    assert r.consts[(ObjectModule, n)] == m;
    assert Walk(r, m, [n][1..]) == Some(m);
  }

  /** True when segment `i` is the first one missing from the namespace. */
  ghost predicate MissingAt(u: Universe, from: ModId, segs: seq<string>, i: nat)
    requires i < |segs|
  {
    Walk(u, from, segs[..i]).Some? && (Walk(u, from, segs[..i]).value, segs[i]) !in u.consts
  }

  /** Resolving a path extended by one segment takes one more step. */
  lemma {:induction false} WalkSnoc(u: Universe, from: ModId, segs: seq<string>, s: string)
    ensures Walk(u, from, segs + [s]) ==
      match Walk(u, from, segs)
      case None => None
      case Some(m) => if (m, s) in u.consts then Some(u.consts[(m, s)]) else None
    decreases |segs|
  {
    if |segs| == 0 {
      assert segs + [s] == [s];
    } else {
      assert (segs + [s])[1..] == segs[1..] + [s];
      if (from, segs[0]) in u.consts {
        WalkSnoc(u, u.consts[(from, segs[0])], segs[1..], s);
      }
    }
  }

  /**
   * Resolution fails exactly when some segment is undefined in the module
   * reached by the segments before it; otherwise every step is defined.
   */
  lemma {:induction false} WalkNoneIff(u: Universe, from: ModId, segs: seq<string>)
    ensures Walk(u, from, segs).None? <==>
      exists i :: 0 <= i < |segs| && MissingAt(u, from, segs, i)
    decreases |segs|
  {
    if |segs| > 0 {
      var init := segs[..|segs| - 1];
      var last := segs[|segs| - 1];
      assert segs == init + [last];
      WalkSnoc(u, from, init, last);
      WalkNoneIff(u, from, init);
      assert forall i :: 0 <= i < |init| ==> segs[..i] == init[..i];
      assert segs[..|init|] == init;
      if Walk(u, from, segs).None? {
        if Walk(u, from, init).None? {
          var i :| 0 <= i < |init| && MissingAt(u, from, init, i);
          assert MissingAt(u, from, segs, i);
        } else {
          assert MissingAt(u, from, segs, |init|);
        }
      } else {
        forall i | 0 <= i < |segs| ensures !MissingAt(u, from, segs, i) {
          if i < |init| { assert !MissingAt(u, from, init, i); }
        }
      }
    }
  }

  /** `constantize` returns `nil` exactly at a first missing segment. */
  lemma ConstantizeNoneIff(u: Universe, name: string)
    ensures Constantize(u, name).None? <==>
      exists i :: 0 <= i < |ConstPath(name)| && MissingAt(u, ObjectModule, ConstPath(name), i)
  {
    WalkNoneIff(u, ObjectModule, ConstPath(name));
  }

  /** A leading `::` names the same constant as the bare path. */
  lemma RootedNameSameConstant(u: Universe, name: string)
    requires !ScopeAt(name, 0)
    ensures Constantize(u, "::" + name) == Constantize(u, name)
  {
    var r := "::" + name;
    assert ScopeAt(r, 0);
    assert r[2..] == name;
    var raw := SplitScopes(name);
    assert SplitScopes(r) == [""] + raw;
    DropTrailingAfterHead(raw);
  }

  /** Dropping trailing empty fields after a leading `""` keeps the head. */
  lemma DropTrailingAfterHead(raw: seq<string>)
    requires |raw| >= 1
    ensures DropTrailingEmpty([""] + raw) == ([""] + DropTrailingEmpty(raw)) ||
            (DropTrailingEmpty(raw) == [] && DropTrailingEmpty([""] + raw) == [])
    decreases |raw|
  {
    var ps := [""] + raw;
    if raw[|raw| - 1] == "" {
      assert ps[..|ps| - 1] == [""] + raw[..|raw| - 1];
      if |raw| > 1 {
        DropTrailingAfterHead(raw[..|raw| - 1]);
      } else {
        assert ps[..|ps| - 1] == [""];
        assert DropTrailingEmpty([""]) == [];
      }
    }
  }

  /**
   * The loop of `constantize`: split, drop one leading empty field, then
   * descend one constant per iteration, returning `nil` on the first miss.
   */
  method ConstantizeLoop(u: Universe, name: string) returns (r: Option<ModId>)
    ensures r == Constantize(u, name)
    ensures r.None? <==>
      exists i :: 0 <= i < |ConstPath(name)| && MissingAt(u, ObjectModule, ConstPath(name), i)
  {
    ConstantizeNoneIff(u, name);
    var names := RubySplitScopes(name);
    if |names| > 0 && names[0] == "" {
      names := names[1..];
    }
    var constant := ObjectModule;
    while |names| > 0
      invariant Walk(u, constant, names) == Constantize(u, name)
      decreases |names|
    {
      var n := names[0];
      names := names[1..];
      if (constant, n) !in u.consts {
        return None;
      }
      constant := u.consts[(constant, n)];
    }
    return Some(constant);
  }
}

=== FILE: frequent.dfy ===
/**
 * `lib/frequent.rb`: the lifecycle under the name Frequent, whose alias
 * slots are `__frequent_original_<member>`.
 */
module Frequent {
  import opened Base
  import opened ProbeNames
  import opened Methods
  import opened Lifecycle
  import opened Properties

  const Lib: Library := Library("__frequent_original_")

  /**
   * `p = Frequent.instrument('Potato#instance_method')` followed by
   * `11.times { Potato.new.instance_method }` leaves `p.calls` at 11: with
   * the member already defined, the probe is enabled while it is created,
   * and each call passes through its wrapper once.  The wrapper is public,
   * so even a private member is then reachable without `send`.
   */
  lemma InstrumentedCallsCounted(bodies: Bodies, depth: nat, w: World, name: string, key: MethodKey,
                                 args: Args, viaSend: bool, n: nat)
    requires w.nextId !in w.probes && w.nextId !in w.installing
    requires ParseName(name).Success? && TargetKey(w.universe, ParseName(name).value) == Some(key)
    requires key in w.table && w.table[key].impl.Original? && bodies(w.table[key].impl.body, args).Returns?
    requires AliasKey(Lib, key) !in w.table
    requires Quiet(w, w.nextId, key) && Quiet(w, w.nextId, AliasKey(Lib, key))
    requires depth >= 2
    ensures Instrument(Lib, bodies, depth, w, name, None).Ok?
    ensures var r := Instrument(Lib, bodies, depth, w, name, None);
            var after := CallTimes(bodies, depth, r.world, key, args, viaSend, n);
            r.value == w.nextId && after.Ok? && w.nextId in after.world.probes && after.world.probes[w.nextId].calls == n
  {
    var id := w.nextId;
    InstrumentEnabledAtOnce(Lib, bodies, depth, w, name, key);
    var w2 := AfterEnable(Lib, Allocated(w, name), id, key);
    var w3 := w2.(registry := Registry.Store(w2.registry, name, id));
    assert AliasKey(Lib, key) != key by { assert |AliasName(Lib, key.name)| > |key.name|; }
    assert WrapsReturning(w3, bodies, id, key, args);
    assert w3.probes[id].calls == 0;
    TimesCounted(bodies, depth, w3, id, key, args, viaSend, n);
  }

  /**
   * `p = Frequent.instrument('Potato#instance_method') { 5.times { … } }`
   * followed by `3.times { … }` leaves `p.calls` at 5: the calls inside the
   * block are counted, the block's end puts the original back as a public
   * method and removes the alias, and no later call counts the probe.
   */
  lemma ScopedCallsCounted(bodies: Bodies, depth: nat, w: World, name: string, key: MethodKey,
                           args: Args, viaSend: bool, n: nat)
    requires w.nextId !in w.probes && w.nextId !in w.installing && !Wraps(w.table, w.nextId)
    requires ParseName(name).Success? && TargetKey(w.universe, ParseName(name).value) == Some(key)
    requires key in w.table && w.table[key].impl.Original? && bodies(w.table[key].impl.body, args).Returns?
    requires AliasKey(Lib, key) !in w.table
    requires Quiet(w, w.nextId, key) && Quiet(w, w.nextId, AliasKey(Lib, key))
    requires depth >= 2
    ensures var r := Instrument(Lib, bodies, depth, w, name, Some(Repeated(key, args, viaSend, n)));
            && r.Ok? && r.value == w.nextId && w.nextId in r.world.probes
            && r.world.probes[w.nextId].calls == n
            && r.world.table == w.table[key := Entry(w.table[key].impl, Public)]
            && forall s: MethodKey, a: Args, vs: bool ::
                 Call(bodies, depth, r.world, s, a, vs).world.probes[w.nextId] == r.world.probes[w.nextId]
  {
    var id := w.nextId;
    BeginEnabledAtOnce(Lib, w, name, key);
    var w2 := AfterEnable(Lib, Allocated(w, name), id, key);
    var w3 := w2.(registry := Registry.Store(w2.registry, name, id));
    assert AliasKey(Lib, key) != key by { assert |AliasName(Lib, key.name)| > |key.name|; }
    assert WrapsReturning(w3, bodies, id, key, args);
    QuietRegistered(w, w3, id, key, name);
    BlockRestores(Lib, bodies, depth, w3, id, name, key, args, viaSend, n, w.table);
    InstrumentBlockOk(Lib, bodies, depth, w, name, Repeated(key, args, viaSend, n), w3, id);
  }

  /**
   * `p = Frequent.instrument('Dummy7#foo')`, then `class Dummy7; def foo;
   * end; end`, then `3.times { Dummy7.new.foo }` leaves `p.calls` at 3: the
   * probe waits disabled, the definition of the member fires the
   * method-added hook under the probe's own name, which installs the
   * wrapper, and each later call passes through it once.
   */
  lemma DeferredCallsCounted(bodies: Bodies, depth: nat, w: World, name: string, key: MethodKey,
                             b: BodyId, vis: Visibility, args: Args, viaSend: bool, n: nat)
    requires w.nextId !in w.probes && w.nextId !in w.installing
    requires ParseName(name).Success? && TargetKey(w.universe, ParseName(name).value) == Some(key)
    requires key !in w.table && EventName(w.universe, key) == name
    requires w.hooks == AllHooks || HookEventsFree(Registry.Store(w.registry, name, w.nextId))
    requires Registry.Lookup(w.registry, EventName(w.universe, AliasKey(Lib, key))).None?
    requires bodies(b, args).Returns? && depth >= 2
    ensures var r := Instrument(Lib, bodies, depth, w, name, None);
            var d := Step(Lib, bodies, depth, r.world, Def(key, b, vis));
            var after := CallTimes(bodies, depth, d.world, key, args, viaSend, n);
            && r.Ok? && d.Ok? && after.Ok? && w.nextId in after.world.probes
            && after.world.probes[w.nextId].calls == n
  {
    var id := w.nextId;
    InstrumentDeferred(Lib, bodies, depth, w, name, key);
    var w1 := Allocated(w, name);
    var w3 := w1.(registry := Registry.Store(w1.registry, name, id), hooks := AllHooks);
    var ak := AliasKey(Lib, key);
    assert |EventName(w.universe, ak)| > |name| by { assert |AliasName(Lib, key.name)| > |key.name|; }
    Registry.StoreLookup(w.registry, name, id, EventName(w.universe, ak));
    Registry.StoreLookup(w.registry, name, id, name);
    assert Quiet(w3, id, ak);
    DefinitionWraps(Lib, bodies, depth, w3, id, key, b, vis);
    var w4 := w3.(table := w3.table[key := Entry(Original(b), vis)]);
    var w5 := AfterEnable(Lib, w4, id, key);
    assert ak != key by { assert |AliasName(Lib, key.name)| > |key.name|; }
    assert WrapsReturning(w5, bodies, id, key, args);
    TimesCounted(bodies, depth, w5, id, key, args, viaSend, n);
  }
}

=== FILE: lifecycle.dfy ===
/**
 * The probe lifecycle shared by `lib/frequent.rb` and its copy
 * `lib/snail.rb`: constructing a probe, `enable!` installing the counting
 * wrapper, `disable!` putting the original back, the deferred hooks that
 * place probes whose target appears later, and the `instrument` facade.
 *
 * Ruby's reflection is replaced by an explicit world: the constant
 * namespace, one method table, the probe objects, the registry, the probes
 * whose `enable!` is in progress, and which of the three hooks on `Module`
 * are installed.  The two libraries differ only in the prefix of the alias
 * slot, which is the `Library` parameter.
 */
module Lifecycle {
  import opened Base
  import opened ProbeNames
  import opened Constants
  import opened Methods
  import Registry

  /** What distinguishes the two copies of the library: the alias prefix. */
  datatype Library = Library(aliasPrefix: string)

  /** `aliased_name`: the slot that keeps the original of member `m`. */
  function AliasName(lib: Library, m: string): (a: string)
    ensures |a| == |lib.aliasPrefix| + |m| && a[..|lib.aliasPrefix|] == lib.aliasPrefix && a[|lib.aliasPrefix|..] == m
    ensures lib.aliasPrefix != "" ==> a != m
  {
    lib.aliasPrefix + m
  }

  /** The alias slot of a method: same owner and kind, aliased name. */
  function AliasKey(lib: Library, key: MethodKey): MethodKey
  {
    AliasOf(key, AliasName(lib, key.name))
  }

  /**
   * `@original_implementation`: the `UnboundMethod` that `instance_method`
   * returned, which remembers the slot it was taken from.
   */
  datatype Captured = Captured(key: MethodKey, impl: Impl)

  /**
   * A probe object.  `original` is `@original_implementation`; it is set at
   * the end of `enable!`, at the moment `@enabled` becomes true, and neither
   * is ever cleared, so `enabled?` holds exactly when an original is kept.
   */
  datatype Probe = Probe(name: string, target: Target, calls: nat, original: Option<Captured>)

  /** `enabled?` (`placed?` in Snail). */
  predicate Enabled(p: Probe)
  {
    p.original.Some?
  }

  /** The three methods `Deferred.enable!` defines on `Module`. */
  datatype Hook = MethodAdded | SingletonMethodAdded | Included

  datatype World = World(
    universe: Universe,
    table: Table,
    probes: map<ProbeId, Probe>,               // probe objects by identity
    registry: Registry.Registry<ProbeId>,      // `probes`: name to probe
    installing: set<ProbeId>,                  // probes with `@enabling` set
    hooks: set<Hook>,                          // hooks installed on `Module`
    nextId: ProbeId)                           // identity of the next probe

  /** The result of a Ruby operation: a value, or an exception. */
  datatype Effect<T> = Ok(world: World, value: T) | Raised(world: World, error: RubyError)

  /** `method_owner` and `method_name`: the method slot a target names, if its owner resolves. */
  function TargetKey(u: Universe, target: Target): (k: Option<MethodKey>)
    ensures k.Some? <==> Constantize(u, target.className).Some?
    ensures k.Some? ==> k.value.owner == Constantize(u, target.className).value
    ensures k.Some? ==> k.value.kind == target.kind && k.value.name == target.methodName
  {
    match Constantize(u, target.className)
    case None => None
    case Some(m) => Some(MethodKey(m, target.kind, target.methodName))
  }

  /**
   * `target_defined?`: the owner resolves and has the member, whatever its
   * visibility (`method_defined?` covers public and protected members,
   * `private_instance_methods` the private ones).
   */
  predicate TargetDefined(w: World, p: Probe)
  {
    var k := TargetKey(w.universe, p.target);
    k.Some? && k.value in w.table
  }

  /** `ready?` (`placeable?` in Snail). */
  predicate Ready(w: World, p: Probe)
  {
    !Enabled(p) && TargetDefined(w, p)
  }

  /** The string a hook passes to `place_by_name`: `"#{self}##{m}"` or `"#{self}.#{m}"`. */
  function EventName(u: Universe, key: MethodKey): (n: string)
    ensures n == Display(Target(ModuleName(u, key.owner), key.kind, key.name))
  {
    ModuleName(u, key.owner) + [SepOf(key.kind)] + key.name
  }

  /** The hook Ruby calls when a method is added to a table of this kind. */
  function HookFor(kind: Kind): Hook
  {
    match kind
    case Instance => MethodAdded
    case Singleton => SingletonMethodAdded
  }

  /** Probes that are not in the middle of `enable!`. */
  function Idle(w: World): set<ProbeId>
  {
    w.probes.Keys - w.installing
  }

  /** A probe keeps its identity and count, and stays enabled once enabled. */
  predicate Keeps(p: Probe, q: Probe)
  {
    q.name == p.name && q.target == p.target && q.calls == p.calls && (Enabled(p) ==> Enabled(q))
  }

  /**
   * The probes keep their identities, counts and enablement; nothing is
   * registered, hooked or allocated.
   */
  predicate Stable(w: World, r: World)
  {
    && r.universe == w.universe && r.registry == w.registry && r.hooks == w.hooks
    && r.nextId == w.nextId && r.installing == w.installing && r.probes.Keys == w.probes.Keys
    && forall i :: i in w.probes ==> Keeps(w.probes[i], r.probes[i])
  }

  /** What placing probes can change: the method table grows and probes become enabled. */
  predicate Evolves(w: World, r: World)
  {
    Stable(w, r) && w.table.Keys <= r.table.Keys
  }

  /** Every probe enabled in `w` is the same object in `r`: its kept original stays. */
  predicate KeepsEnabled(w: World, r: World)
  {
    forall i :: i in w.probes && i in r.probes && Enabled(w.probes[i]) ==> r.probes[i] == w.probes[i]
  }

  lemma EvolvesTrans(a: World, b: World, c: World)
    requires Evolves(a, b) && Evolves(b, c)
    ensures Evolves(a, c)
  {
  }

  /** Marking a probe as enabling takes it out of `Idle`. */
  lemma IdleShrinks(w: World, id: ProbeId)
    requires id in w.probes && id !in w.installing
    ensures |Idle(w.(installing := w.installing + {id}))| < |Idle(w)|
  {
    var w1 := w.(installing := w.installing + {id});
    assert Idle(w1) == Idle(w) - {id};
  }

  /**
   * `enable!`: unless it is already in progress for this probe, capture the
   * original, alias it, define the counting wrapper in its place, and mark
   * the probe enabled.  `alias_method` and `define_method` each make Ruby
   * call the method-added hook, which may place other probes meanwhile.
   * A target that does not resolve leaves the world unchanged: every caller
   * checks `ready?` first.
   */
  function Enable(lib: Library, w: World, id: ProbeId): (r: World)
    requires id in w.probes
    ensures Evolves(w, r)
    ensures id !in w.installing && TargetDefined(w, w.probes[id]) ==> Enabled(r.probes[id])
    ensures !Enabled(w.probes[id]) ==> KeepsEnabled(w, r)
    decreases |Idle(w)|, 0
  {
    if id in w.installing then w
    else
      var p := w.probes[id];
      var k := TargetKey(w.universe, p.target);
      if k.None? || k.value !in w.table then w
      else
        var key := k.value;
        var aliasName := AliasName(lib, key.name);
        var ak := AliasOf(key, aliasName);
        var original := Captured(key, w.table[key].impl);
        var w1 := w.(installing := w.installing + {id}, table := w.table[ak := w.table[key]]);
        IdleShrinks(w, id);
        var w2 := Fire(lib, w1, ak);
        var w3 := w2.(table := w2.table[key := Entry(Counting(id, aliasName), Public)]);
        var w4 := Fire(lib, w3, key);
        EnableFinishes(w, w1, w2, w3, w4, id, original);
        w4.(installing := w4.installing - {id},
            probes := w4.probes[id := w4.probes[id].(original := Some(original))])
  }

  /**
   * The end of `enable!`: after the two events, clearing `@enabling` and
   * keeping the original leaves every other probe as the events left it.
   */
  lemma EnableFinishes(w: World, w1: World, w2: World, w3: World, w4: World, id: ProbeId, original: Captured)
    requires id in w.probes && id !in w.installing
    requires w1 == w.(installing := w.installing + {id}, table := w1.table) && w.table.Keys <= w1.table.Keys
    requires Evolves(w1, w2) && KeepsEnabled(w1, w2)
    requires w3 == w2.(table := w3.table) && w2.table.Keys <= w3.table.Keys
    requires Evolves(w3, w4) && KeepsEnabled(w3, w4)
    ensures var r := w4.(installing := w4.installing - {id},
                         probes := w4.probes[id := w4.probes[id].(original := Some(original))]);
            && Evolves(w, r) && Enabled(r.probes[id])
            && (!Enabled(w.probes[id]) ==> KeepsEnabled(w, r))
  {
    assert w4.installing - {id} == w.installing;
  }

  /** The method-added hook for slot `key`, if that hook is installed. */
  function Fire(lib: Library, w: World, key: MethodKey): (r: World)
    ensures Evolves(w, r) && KeepsEnabled(w, r)
    decreases |Idle(w)|, 2
  {
    if HookFor(key.kind) in w.hooks then PlaceByName(lib, w, EventName(w.universe, key)) else w
  }

  /** `Deferred.place_by_name`: enable the probe registered under exactly `name`, if ready. */
  function PlaceByName(lib: Library, w: World, name: string): (r: World)
    ensures Evolves(w, r) && KeepsEnabled(w, r)
    decreases |Idle(w)|, 1
  {
    match Registry.Lookup(w.registry, name)
    case None => w
    case Some(id) => if id in w.probes && Ready(w, w.probes[id]) then Enable(lib, w, id) else w
  }

  /** Whether a probe's target exists can only change from no to yes while probes are placed. */
  lemma TargetDefinedMono(w: World, r: World, p: Probe)
    requires Evolves(w, r) && TargetDefined(w, p)
    ensures TargetDefined(r, p)
  {
  }

  /** The three methods on `Module`, once `Deferred.enable!` has run. */
  const AllHooks: set<Hook> := {MethodAdded, SingletonMethodAdded, Included}

  /** A set holding each of the three hooks holds all there are. */
  lemma HooksComplete(s: set<Hook>)
    requires MethodAdded in s && SingletonMethodAdded in s && Included in s
    ensures s == AllHooks
  {
    forall h: Hook | h in s ensures h in AllHooks {
      match h
      case MethodAdded =>
      case SingletonMethodAdded =>
      case Included =>
    }
  }

  /**
   * `Deferred.enable!`: define `method_added`, `singleton_method_added` and
   * `included` on `Module`, once.  Each definition is itself a method added
   * to `Module`, reported to the `method_added` hook defined first.
   */
  function EnableHooks(lib: Library, w: World): (r: World)
    ensures r.hooks == AllHooks
    ensures Evolves(w, r.(hooks := w.hooks))
    ensures w.hooks == AllHooks ==> r == w
  {
    if w.hooks == AllHooks then w
    else
      var w1 := PlaceByName(lib, w.(hooks := w.hooks + {MethodAdded}), "Module#method_added");
      var w2 := PlaceByName(lib, w1.(hooks := w1.hooks + {SingletonMethodAdded}), "Module#singleton_method_added");
      HooksComplete(w2.hooks + {Included});
      PlaceByName(lib, w2.(hooks := w2.hooks + {Included}), "Module#included")
  }

  /** Probe `id` exists in `w` and is ready. */
  predicate ReadyId(w: World, id: ProbeId)
  {
    id in w.probes && Ready(w, w.probes[id])
  }

  /** `select(&:ready?)`: the probes among `ids` that are ready, in order. */
  function Selected(w: World, ids: seq<ProbeId>): (s: seq<ProbeId>)
    ensures forall i :: 0 <= i < |s| ==> ReadyId(w, s[i]) && s[i] in ids
    ensures forall j :: 0 <= j < |ids| && ReadyId(w, ids[j]) ==> ids[j] in s
    decreases |ids|
  {
    if |ids| == 0 then []
    else
      var rest := Selected(w, ids[1..]);
      assert forall j :: 1 <= j < |ids| ==> ids[j] == ids[1..][j - 1];
      (if ReadyId(w, ids[0]) then [ids[0]] else []) + rest
  }

  /** `each(&:enable!)`: enable the probes one after the other, without looking again. */
  function EnableEach(lib: Library, w: World, ids: seq<ProbeId>): (r: World)
    ensures Evolves(w, r)
    ensures forall j :: (0 <= j < |ids| && ids[j] in w.probes && ids[j] !in w.installing &&
                         TargetDefined(w, w.probes[ids[j]])) ==> Enabled(r.probes[ids[j]])
    decreases |ids|
  {
    if |ids| == 0 then w
    else
      var w1 := if ids[0] in w.probes then Enable(lib, w, ids[0]) else w;
      var r := EnableEach(lib, w1, ids[1..]);
      forall j | 0 <= j < |ids| && ids[j] in w.probes && ids[j] !in w.installing &&
                 TargetDefined(w, w.probes[ids[j]])
        ensures Enabled(r.probes[ids[j]])
      {
        if j > 0 {
          TargetDefinedMono(w, w1, w.probes[ids[j]]);
          assert w1.probes[ids[j]].target == w.probes[ids[j]].target;
          assert ids[j] == ids[1..][j - 1];
        }
      }
      r
  }

  /** The `included` hook: every registered probe ready at that moment is enabled. */
  function IncludedHook(lib: Library, w: World): (r: World)
    ensures Evolves(w, r)
    ensures forall j :: (0 <= j < |w.registry| && w.registry[j].value in w.probes && w.registry[j].value !in w.installing &&
                         Ready(w, w.probes[w.registry[j].value])) ==> Enabled(r.probes[w.registry[j].value])
  {
    var vs := Registry.Values(w.registry);
    var sel := Selected(w, vs);
    var r := EnableEach(lib, w, sel);
    forall j | 0 <= j < |w.registry| && w.registry[j].value in w.probes && w.registry[j].value !in w.installing &&
               Ready(w, w.probes[w.registry[j].value])
      ensures Enabled(r.probes[w.registry[j].value])
    {
      var id := vs[j];
      assert id in sel;
      var i :| 0 <= i < |sel| && sel[i] == id;
    }
    r
  }

  /**
   * `disable!`: for an enabled probe, define the member again from the kept
   * original and remove the alias.  Nothing resets `@enabled`, so a second
   * call repeats the work and `remove_method` finds no alias.  `method_owner`
   * is resolved again: `nil` has no `class_eval`, and an original cannot be
   * defined in a module other than the one it was taken from.
   */
  function Disable(lib: Library, w: World, id: ProbeId): (r: Effect<()>)
    requires id in w.probes
    ensures Stable(w, r.world) && KeepsEnabled(w, r.world)
    ensures !Enabled(w.probes[id]) ==> r == Ok(w, ())
    ensures r.Ok? && Enabled(w.probes[id]) && lib.aliasPrefix != "" ==>
      var key := w.probes[id].original.value.key;
      key in r.world.table && AliasKey(lib, key) !in r.world.table
  {
    var p := w.probes[id];
    if !Enabled(p) then Ok(w, ())
    else
      match TargetKey(w.universe, p.target)
      case None => Raised(w, NoMethodError("class_eval"))
      case Some(key) =>
        if key != p.original.value.key then Raised(w, TypeError)
        else
          var w1 := w.(table := w.table[key := Entry(p.original.value.impl, Public)]);
          var w2 := Fire(lib, w1, key);
          var ak := AliasKey(lib, key);
          if ak !in w2.table then Raised(w2, NameError(AliasName(lib, key.name)))
          else Ok(w2.(table := w2.table - {ak}), ())
  }

  /** Each probe's count grows by the times a call entered one of its wrappers. */
  function AddHits(probes: map<ProbeId, Probe>, trace: seq<Frame>): (r: map<ProbeId, Probe>)
    ensures r.Keys == probes.Keys
    ensures forall i :: i in probes ==> r[i] == probes[i].(calls := probes[i].calls + Hits(trace, i))
  {
    map i | i in probes :: probes[i].(calls := probes[i].calls + Hits(trace, i))
  }

  /**
   * A call from outside, `obj.m(*args)`, or `obj.send(:m, *args)` when
   * `viaSend`, which also reaches private and protected members.  `depth`
   * is the stack Ruby allows.  Every wrapper entered increments its probe,
   * also when the call raises later on.
   */
  function Call(bodies: Bodies, depth: nat, w: World, key: MethodKey, args: Args, viaSend: bool): (r: Effect<int>)
    ensures r.world.table == w.table && r.world.universe == w.universe
    ensures r.world == w.(probes := r.world.probes) && r.world.probes.Keys == w.probes.Keys
    ensures r.Ok? ==> key in w.table && (viaSend || w.table[key].visibility == Public)
    ensures forall i :: i in w.probes ==> r.world.probes[i] == w.probes[i].(calls := r.world.probes[i].calls)
    ensures forall i :: i in w.probes ==> w.probes[i].calls <= r.world.probes[i].calls
    ensures forall i :: i in w.probes && !Wraps(w.table, i) ==> r.world.probes[i] == w.probes[i]
  {
    if key !in w.table || (!viaSend && w.table[key].visibility != Public) then Raised(w, NoMethodError(key.name))
    else
      var o := Invoke(w.table, bodies, key, args, depth);
      var w1 := w.(probes := AddHits(w.probes, o.trace));
      forall i | i in w.probes && !Wraps(w.table, i)
        ensures w1.probes[i] == w.probes[i]
      {
        UnwrappedNotCounted(w.table, bodies, key, args, depth, i);
      }
      match o.result
      case Success(v) => Ok(w1, v)
      case Failure(e) => Raised(w1, e)
  }

  /** What the instrumented program does between `instrument` and the end of its block. */
  datatype Action =
    | Def(key: MethodKey, body: BodyId, visibility: Visibility)   // `def m … end`
    | SetConst(scope: ModId, name: string, value: ModId)           // `Name = mod` in `scope`
    | Include(host: ModId, mixin: ModId)                            // `host.include(mixin)`
    | CallMethod(key: MethodKey, args: Args, viaSend: bool)         // a call from outside

  /** The probes keep their identities and enablement; nothing is registered, hooked or allocated. */
  predicate SameProbes(w: World, r: World)
  {
    && r.registry == w.registry && r.hooks == w.hooks && r.nextId == w.nextId
    && r.installing == w.installing && r.probes.Keys == w.probes.Keys
    && forall i :: i in w.probes ==>
         && r.probes[i].name == w.probes[i].name && r.probes[i].target == w.probes[i].target
         && (Enabled(w.probes[i]) ==> Enabled(r.probes[i]))
  }

  /**
   * One action.  Defining a method reports it to the method-added hook of
   * its kind; including a module runs the `included` hook.
   */
  function Step(lib: Library, bodies: Bodies, depth: nat, w: World, a: Action): (r: Effect<()>)
    ensures SameProbes(w, r.world)
    ensures a.CallMethod? ==> r == (match Call(bodies, depth, w, a.key, a.args, a.viaSend)
                                    case Ok(w1, _) => Ok(w1, ())
                                    case Raised(w1, e) => Raised(w1, e))
  {
    match a
    case Def(key, b, vis) => Ok(Fire(lib, w.(table := w.table[key := Entry(Original(b), vis)]), key), ())
    case SetConst(scope, n, m) => Ok(w.(universe := Assign(w.universe, scope, n, m)), ())
    case Include(_, _) => Ok(if Included in w.hooks then IncludedHook(lib, w) else w, ())
    case CallMethod(key, args, viaSend) =>
      match Call(bodies, depth, w, key, args, viaSend)
      case Ok(w1, _) => Ok(w1, ())
      case Raised(w1, e) => Raised(w1, e)
  }

  /** The actions in order, up to the first exception. */
  function Run(lib: Library, bodies: Bodies, depth: nat, w: World, actions: seq<Action>): (r: Effect<()>)
    ensures SameProbes(w, r.world)
    decreases |actions|
  {
    if |actions| == 0 then Ok(w, ())
    else
      match Step(lib, bodies, depth, w, actions[0])
      case Raised(w1, e) => Raised(w1, e)
      case Ok(w1, _) => Run(lib, bodies, depth, w1, actions[1..])
  }

  /**
   * `Probe.new(name)`: parse the name, then enable at once if the target is
   * already defined.  The probe is not registered yet while it is enabled.
   */
  function Construct(lib: Library, w: World, name: string): (r: Effect<ProbeId>)
    ensures r.Raised? <==> NoSep(name)
    ensures r.Raised? ==> r == Raised(w, ProbeNameError(name))
    ensures r.Ok? ==>
      && r.value == w.nextId && r.world.nextId == w.nextId + 1
      && r.world.probes.Keys == w.probes.Keys + {r.value}
      && r.world.registry == w.registry && r.world.hooks == w.hooks && r.world.installing == w.installing
      && r.world.universe == w.universe && w.table.Keys <= r.world.table.Keys
      && r.world.probes[r.value].name == name && r.world.probes[r.value].calls == 0
      && r.world.probes[r.value].target == ParseName(name).value
    ensures r.Ok? && w.nextId !in w.probes ==> forall i :: i in w.probes ==> Keeps(w.probes[i], r.world.probes[i])
  {
    match ParseName(name)
    case Failure(e) => Raised(w, e)
    case Success(t) =>
      var id := w.nextId;
      var p := Probe(name, t, 0, None);
      var w1 := w.(probes := w.probes[id := p], nextId := id + 1);
      Ok(if Ready(w1, p) then Enable(lib, w1, id) else w1, id)
  }

  /**
   * The part of `instrument(name)` before the block: create the probe,
   * register it under its name, and install the hooks unless the probe is
   * already enabled.
   */
  function Begin(lib: Library, w: World, name: string): (r: Effect<ProbeId>)
    ensures r.Raised? <==> NoSep(name)
    ensures r.Raised? ==> r == Raised(w, ProbeNameError(name))
    ensures r.Ok? ==>
      && r.value == w.nextId && r.world.nextId == w.nextId + 1
      && r.world.probes.Keys == w.probes.Keys + {r.value}
      && r.world.registry == Registry.Store(w.registry, name, r.value)
      && r.world.installing == w.installing && r.world.universe == w.universe
      && (r.world.hooks == AllHooks || Enabled(r.world.probes[r.value]))
      && r.world.probes[r.value].name == name && r.world.probes[r.value].target == ParseName(name).value
    ensures r.Ok? ==> (Construct(lib, w, name).Ok? &&
      var p := Construct(lib, w, name).world.probes[r.value];
      (Enabled(p) ==> r.world.hooks == w.hooks) && (!Enabled(p) ==> r.world.hooks == AllHooks))
    ensures r.Ok? && w.nextId !in w.probes ==> forall i :: i in w.probes ==> Keeps(w.probes[i], r.world.probes[i])
  {
    match Construct(lib, w, name)
    case Raised(w1, e) => Raised(w1, e)
    case Ok(w1, id) =>
      var w2 := w1.(registry := Registry.Store(w1.registry, name, id));
      Ok(if Enabled(w2.probes[id]) then w2 else EnableHooks(lib, w2), id)
  }

  /** The block of `instrument`: run it, then disable the probe and unregister its name. */
  function Scoped(lib: Library, bodies: Bodies, depth: nat, w: World, id: ProbeId, name: string,
                  actions: seq<Action>): (r: Effect<()>)
    requires id in w.probes
    ensures r.world.probes.Keys == w.probes.Keys && r.world.nextId == w.nextId && r.world.hooks == w.hooks
    ensures Enabled(w.probes[id]) ==> Enabled(r.world.probes[id])
    ensures r.Ok? ==> r.world.registry == Registry.Delete(w.registry, name)
    ensures r.Raised? ==> r.world.registry == w.registry
    ensures r.Ok? && Enabled(r.world.probes[id]) && lib.aliasPrefix != "" ==>
      var key := r.world.probes[id].original.value.key;
      key in r.world.table && AliasKey(lib, key) !in r.world.table
  {
    match Run(lib, bodies, depth, w, actions)
    case Raised(w1, e) => Raised(w1, e)
    case Ok(w1, _) =>
      match Disable(lib, w1, id)
      case Raised(w2, e) => Raised(w2, e)
      case Ok(w2, _) => Ok(w2.(registry := Registry.Delete(w2.registry, name)), ())
  }

  /**
   * `instrument(name)`, and `instrument(name) { … }` when a block is given;
   * an exception from the block leaves the probe enabled and registered.
   */
  function Instrument(lib: Library, bodies: Bodies, depth: nat, w: World, name: string,
                      block: Option<seq<Action>>): (r: Effect<ProbeId>)
    ensures NoSep(name) ==> r == Raised(w, ProbeNameError(name))
    ensures block.None? ==> (r.Ok? <==> !NoSep(name))
    ensures r.Ok? ==> r.value == w.nextId
    ensures r.Ok? ==> r.world.probes.Keys == w.probes.Keys + {r.value} && r.world.nextId == w.nextId + 1
    ensures r.Ok? ==> r.world.hooks == AllHooks || Enabled(r.world.probes[r.value])
    ensures r.Ok? && block.None? ==> Registry.Lookup(r.world.registry, name) == Some(r.value)
    ensures r.Ok? && block.Some? ==> r.world.registry == Registry.Delete(Registry.Store(w.registry, name, r.value), name)
    ensures r.Ok? ==> (Construct(lib, w, name).Ok? &&
      var p := Construct(lib, w, name).world.probes[r.value];
      (Enabled(p) ==> r.world.hooks == w.hooks) && (!Enabled(p) ==> r.world.hooks == AllHooks))
    ensures r.Ok? && block.Some? && Enabled(r.world.probes[r.value]) && lib.aliasPrefix != "" ==>
      var key := r.world.probes[r.value].original.value.key;
      key in r.world.table && AliasKey(lib, key) !in r.world.table
  {
    match Begin(lib, w, name)
    case Raised(w1, e) => Raised(w1, e)
    case Ok(w1, id) =>
      Registry.StoreLookup(w.registry, name, id, name);
      match block
      case None => Ok(w1, id)
      case Some(actions) =>
        match Scoped(lib, bodies, depth, w1, id, name, actions)
        case Raised(w2, e) => Raised(w2, e)
        case Ok(w2, _) => Ok(w2, id)
  }
}

=== FILE: methods.dfy ===
/**
 * Method tables and method invocation.  Ruby's per-module method tables are
 * one explicit map keyed by owner module, kind (instance methods or the
 * singleton class) and member name.  An entry is either a method the program
 * defined or a counting wrapper installed by a probe.
 */
module Methods {
  import opened Base
  import opened ProbeNames
  import opened Constants

  type ProbeId = nat

  /** Identifies a method body written by the program. */
  type BodyId = nat

  datatype MethodKey = MethodKey(owner: ModId, kind: Kind, name: string)

  datatype Visibility = Public | Protected | Private

  datatype Impl =
    | Original(body: BodyId)
      // the wrapper `define_method` installs: increment `probe`, then
      // `send(delegate, *args, &blk)` on the same receiver
    | Counting(probe: ProbeId, delegate: string)

  datatype Entry = Entry(impl: Impl, visibility: Visibility)

  type Table = map<MethodKey, Entry>

  /** Positional arguments and the attached block, passed through untouched. */
  datatype Args = Args(positional: seq<int>, block: Option<BodyId>)

  /**
   * What a program-defined body does with its arguments: return a value, or
   * return the result of calling `member` on its own receiver (`self`).
   */
  datatype Behaviour = Returns(value: int) | CallsSelf(member: string, args: Args)

  type Bodies = (BodyId, Args) -> Behaviour

  /** One method entered during a call, with the probe its implementation counted, if any. */
  datatype Frame = Frame(key: MethodKey, hit: Option<ProbeId>)

  /** The result of a call and the methods it entered, outermost first. */
  datatype Outcome = Outcome(result: Result<int, RubyError>, trace: seq<Frame>)

  /** How many times probe `p` was counted along `trace`. */
  function Hits(trace: seq<Frame>, p: ProbeId): nat
  {
    if |trace| == 0 then 0
    else (if trace[0].hit == Some(p) then 1 else 0) + Hits(trace[1..], p)
  }

  /** How many times method `key` was entered along `trace`. */
  function Entries(trace: seq<Frame>, key: MethodKey): nat
  {
    if |trace| == 0 then 0
    else (if trace[0].key == key then 1 else 0) + Entries(trace[1..], key)
  }

  lemma {:induction false} CountsConcat(a: seq<Frame>, b: seq<Frame>, p: ProbeId, key: MethodKey)
    ensures Hits(a + b, p) == Hits(a, p) + Hits(b, p)
    ensures Entries(a + b, key) == Entries(a, key) + Entries(b, key)
    decreases |a|
  {
    if |a| == 0 {
      assert a + b == b;
    } else {
      assert (a + b)[1..] == a[1..] + b;
      CountsConcat(a[1..], b, p, key);
    }
  }

  /** A trace none of whose frames counted `p` counts `p` zero times. */
  lemma {:induction false} HitsNone(trace: seq<Frame>, p: ProbeId)
    requires forall i :: 0 <= i < |trace| ==> trace[i].hit != Some(p)
    ensures Hits(trace, p) == 0
    decreases |trace|
  {
    if |trace| > 0 {
      HitsNone(trace[1..], p);
    }
  }

  /** True when some entry of `t` is a wrapper counting for `p`. */
  ghost predicate Wraps(t: Table, p: ProbeId)
  {
    exists k :: k in t && t[k].impl.Counting? && t[k].impl.probe == p
  }

  /** What executing one implementation does first: return, or call on. */
  datatype Next = Done(value: int) | Forward(to: MethodKey, args: Args)

  /**
   * The step an implementation takes when entered at `key`: a wrapper sends
   * its own arguments and block to its delegate; a program body returns or
   * calls a member of the same receiver.
   */
  function NextOf(impl: Impl, bodies: Bodies, key: MethodKey, args: Args): Next
  {
    match impl
    case Counting(_, d) => Forward(key.(name := d), args)
    case Original(b) =>
      match bodies(b, args)
      case Returns(v) => Done(v)
      case CallsSelf(m, a) => Forward(key.(name := m), a)
  }

  /** The probe an implementation increments when entered. */
  function HitOf(impl: Impl): Option<ProbeId>
  {
    if impl.Counting? then Some(impl.probe) else None
  }

  /**
   * Calls method `key` with `args`; `fuel` is the depth of the Ruby stack
   * still available.
   */
  function Invoke(t: Table, bodies: Bodies, key: MethodKey, args: Args, fuel: nat): (o: Outcome)
    ensures |o.trace| <= fuel
    ensures o.result.Success? ==> |o.trace| > 0 && o.trace[0].key == key && key in t
    decreases fuel
  {
    if fuel == 0 then Outcome(Failure(SystemStackError), [])
    else if key !in t then Outcome(Failure(NoMethodError(key.name)), [])
    else
      var impl := t[key].impl;
      match NextOf(impl, bodies, key, args)
      case Done(v) => Outcome(Success(v), [Frame(key, None)])
      case Forward(k, a) =>
        var sub := Invoke(t, bodies, k, a, fuel - 1);
        Outcome(sub.result, [Frame(key, HitOf(impl))] + sub.trace)
  }

  /**
   * A call enters no more methods than the stack depth allows, every frame
   * is a method of the table that counted exactly the probe its
   * implementation increments, and a call that returns entered `key` first.
   */
  lemma {:induction false} InvokeTrace(t: Table, bodies: Bodies, key: MethodKey, args: Args, fuel: nat)
    ensures var o := Invoke(t, bodies, key, args, fuel);
            && |o.trace| <= fuel
            && (forall i :: 0 <= i < |o.trace| ==>
                  o.trace[i].key in t && o.trace[i].hit == HitOf(t[o.trace[i].key].impl))
            && (o.result.Success? ==> |o.trace| > 0 && o.trace[0].key == key)
    decreases fuel
  {
    if fuel > 0 && key in t {
      match NextOf(t[key].impl, bodies, key, args)
      case Done(_) =>
      case Forward(k, a) =>
        InvokeTrace(t, bodies, k, a, fuel - 1);
        var sub := Invoke(t, bodies, k, a, fuel - 1);
        var o := Invoke(t, bodies, key, args, fuel);
        assert forall i :: 1 <= i < |o.trace| ==> o.trace[i] == sub.trace[i - 1];
    }
  }

  /** A probe with no wrapper in the table is never counted, whatever is called. */
  lemma UnwrappedNotCounted(t: Table, bodies: Bodies, key: MethodKey, args: Args, fuel: nat, p: ProbeId)
    requires !Wraps(t, p)
    ensures Hits(Invoke(t, bodies, key, args, fuel).trace, p) == 0
  {
    var o := Invoke(t, bodies, key, args, fuel);
    InvokeTrace(t, bodies, key, args, fuel);
    forall i | 0 <= i < |o.trace|
      ensures o.trace[i].hit != Some(p)
    {
      var k := o.trace[i].key;
      assert k in t && !(t[k].impl.Counting? && t[k].impl.probe == p);
    }
    HitsNone(o.trace, p);
  }

  /** The key the wrapper for `key` delegates to when the alias is `aliasName`. */
  function AliasOf(key: MethodKey, aliasName: string): MethodKey
  {
    key.(name := aliasName)
  }

  /**
   * The table effect of `alias_method aliasName, m` followed by
   * `define_method(m) { increment; send(aliasName, …) }`.
   */
  function Install(t: Table, key: MethodKey, p: ProbeId, aliasName: string): (t': Table)
    requires key in t
    ensures t'.Keys == t.Keys + {AliasOf(key, aliasName)}
    ensures AliasOf(key, aliasName) != key ==>
      t'[AliasOf(key, aliasName)] == t[key] && t'[key] == Entry(Counting(p, aliasName), Public)
    ensures forall k :: k in t && k != key && k != AliasOf(key, aliasName) ==> t'[k] == t[k]
  {
    t[AliasOf(key, aliasName) := t[key]][key := Entry(Counting(p, aliasName), Public)]
  }

  /**
   * Putting the captured original back on `key` as a public method and
   * removing the alias undoes `Install`, except for the visibility.
   */
  lemma InstallUndone(t: Table, key: MethodKey, p: ProbeId, aliasName: string)
    requires key in t && AliasOf(key, aliasName) !in t && aliasName != key.name
    ensures Install(t, key, p, aliasName)[key := Entry(t[key].impl, Public)] - {AliasOf(key, aliasName)} ==
            t[key := Entry(t[key].impl, Public)]
  {
    var ak := AliasOf(key, aliasName);
    var e := Entry(t[key].impl, Public);
    var u := Install(t, key, p, aliasName)[key := e] - {ak};
    assert u.Keys == t.Keys by {
      assert Install(t, key, p, aliasName).Keys == t.Keys + {ak};
    }
    forall k | k in u ensures u[k] == t[key := e][k] {
      if k != key { assert k != ak; }
    }
  }

  /** Redefining a slot with the implementation it already had adds no wrapper of `p`. */
  lemma RestoredUnwrapped(t: Table, key: MethodKey, p: ProbeId, vis: Visibility)
    requires key in t && !Wraps(t, p)
    ensures !Wraps(t[key := Entry(t[key].impl, vis)], p)
  {
    var t1 := t[key := Entry(t[key].impl, vis)];
    forall k | k in t1
      ensures !(t1[k].impl.Counting? && t1[k].impl.probe == p)
    {
      assert t1[k].impl == t[k].impl;
    }
  }

  /** A call whose method returns at once. */
  lemma InvokeDone(t: Table, bodies: Bodies, key: MethodKey, args: Args, f: nat, v: int)
    requires f > 0 && key in t && NextOf(t[key].impl, bodies, key, args) == Done(v)
    ensures Invoke(t, bodies, key, args, f) == Outcome(Success(v), [Frame(key, None)])
  {
  }

  /** A call whose method calls on: its outcome is the nested call's, after this entry. */
  lemma InvokeForward(t: Table, bodies: Bodies, key: MethodKey, args: Args, f: nat, k: MethodKey, a: Args)
    requires f > 0 && key in t && NextOf(t[key].impl, bodies, key, args) == Forward(k, a)
    ensures var sub := Invoke(t, bodies, k, a, f - 1);
            Invoke(t, bodies, key, args, f) == Outcome(sub.result, [Frame(key, HitOf(t[key].impl))] + sub.trace)
  {
  }

  /** The same implementation takes the same step from any slot of the same owner and kind. */
  lemma NextOfRenamed(impl: Impl, bodies: Bodies, key: MethodKey, name: string, args: Args)
    ensures NextOf(impl, bodies, key.(name := name), args) == NextOf(impl, bodies, key, args)
  {
  }

  /**
   * `t1` is `t` with a wrapper for `p` installed on `key`: the alias slot
   * holds what `key` held, and every other slot is unchanged.
   */
  ghost predicate Installed(t: Table, t1: Table, key: MethodKey, p: ProbeId, aliasName: string)
  {
    var ak := AliasOf(key, aliasName);
    && key in t && ak !in t && ak in t1 && key in t1
    && t1[key].impl == Counting(p, aliasName) && t1[ak] == t[key]
    && forall k :: k in t && k != key ==> k in t1 && t1[k] == t[k]
  }

  /**
   * A trace as seen once the wrapper for `p` sits on `key`: every entry into
   * `key` becomes an entry into the wrapper, which counts `p`, followed by
   * an entry into the alias `ak`, which does what `key` did.
   */
  function Expand(trace: seq<Frame>, key: MethodKey, p: ProbeId, ak: MethodKey): seq<Frame>
  {
    if |trace| == 0 then [] else ExpandFrame(trace[0], key, p, ak) + Expand(trace[1..], key, p, ak)
  }

  function ExpandFrame(e: Frame, key: MethodKey, p: ProbeId, ak: MethodKey): seq<Frame>
  {
    if e.key == key then [Frame(key, Some(p)), Frame(ak, e.hit)] else [e]
  }

  lemma ExpandCons(e: Frame, trace: seq<Frame>, key: MethodKey, p: ProbeId, ak: MethodKey)
    ensures Expand([e] + trace, key, p, ak) == ExpandFrame(e, key, p, ak) + Expand(trace, key, p, ak)
  {
    assert ([e] + trace)[0] == e && ([e] + trace)[1..] == trace;
  }

  /**
   * The wrapper adds one count of `p` and one entry into the alias per entry
   * into `key`; every other probe's count and every other method's entries
   * are unchanged.
   */
  lemma {:induction false} ExpandCounts(trace: seq<Frame>, key: MethodKey, p: ProbeId, ak: MethodKey,
                                        q: ProbeId, k: MethodKey)
    requires key != ak
    ensures Hits(Expand(trace, key, p, ak), q) == Hits(trace, q) + (if q == p then Entries(trace, key) else 0)
    ensures Entries(Expand(trace, key, p, ak), k) == Entries(trace, k) + (if k == ak then Entries(trace, key) else 0)
    decreases |trace|
  {
    if |trace| > 0 {
      var e := trace[0];
      var head := ExpandFrame(e, key, p, ak);
      ExpandCounts(trace[1..], key, p, ak, q, k);
      CountsConcat(head, Expand(trace[1..], key, p, ak), q, k);
      if e.key == key {
        assert head[1..][1..] == [];
      } else {
        assert head[1..] == [];
      }
    }
  }

  /** The slots a call entering the probed method `key` goes through. */
  ghost predicate WrappedAt(t: Table, t1: Table, key: MethodKey, p: ProbeId, aliasName: string)
  {
    var ak := AliasOf(key, aliasName);
    && key in t && key in t1 && ak in t1 && key != ak
    && t1[key].impl == Counting(p, aliasName) && t1[ak] == t[key]
  }

  /** Transparency at `key` when the original returns at once. */
  lemma AtKeyDone(t: Table, t1: Table, bodies: Bodies, key: MethodKey, p: ProbeId,
                  aliasName: string, args: Args, f: nat, g: nat, v: int)
    requires WrappedAt(t, t1, key, p, aliasName) && 0 < f && 2 <= g
    requires NextOf(t[key].impl, bodies, key, args) == Done(v)
    ensures var o := Invoke(t, bodies, key, args, f);
            Invoke(t1, bodies, key, args, g) == Outcome(o.result, Expand(o.trace, key, p, AliasOf(key, aliasName)))
  {
    var ak := AliasOf(key, aliasName);
    NextOfRenamed(t[key].impl, bodies, key, aliasName, args);
    InvokeForward(t1, bodies, key, args, g, ak, args);
    InvokeDone(t, bodies, key, args, f, v);
    InvokeDone(t1, bodies, ak, args, g - 1, v);
    assert Expand([Frame(key, None)], key, p, ak) == [Frame(key, Some(p)), Frame(ak, None)];
  }

  /** Transparency at `key` when the original calls on, given transparency of that call. */
  lemma AtKeyForward(t: Table, t1: Table, bodies: Bodies, key: MethodKey, p: ProbeId,
                     aliasName: string, args: Args, f: nat, g: nat, k2: MethodKey, a2: Args)
    requires WrappedAt(t, t1, key, p, aliasName) && 0 < f && 2 * f <= g
    requires NextOf(t[key].impl, bodies, key, args) == Forward(k2, a2)
    requires var sub := Invoke(t, bodies, k2, a2, f - 1);
             sub.result.Success? ==>
               Invoke(t1, bodies, k2, a2, g - 2) == Outcome(sub.result, Expand(sub.trace, key, p, AliasOf(key, aliasName)))
    ensures var o := Invoke(t, bodies, key, args, f);
            o.result.Success? ==>
              Invoke(t1, bodies, key, args, g) == Outcome(o.result, Expand(o.trace, key, p, AliasOf(key, aliasName)))
  {
    var ak := AliasOf(key, aliasName);
    var impl := t[key].impl;
    NextOfRenamed(impl, bodies, key, aliasName, args);
    InvokeForward(t1, bodies, key, args, g, ak, args);
    InvokeForward(t, bodies, key, args, f, k2, a2);
    InvokeForward(t1, bodies, ak, args, g - 1, k2, a2);
    var sub := Invoke(t, bodies, k2, a2, f - 1);
    if sub.result.Success? {
      var h := HitOf(impl);
      var rest := Expand(sub.trace, key, p, ak);
      ExpandCons(Frame(key, h), sub.trace, key, p, ak);
      assert [Frame(key, Some(p))] + ([Frame(ak, h)] + rest) == [Frame(key, Some(p)), Frame(ak, h)] + rest;
    }
  }

  /** The inductive step of transparency for a call entering the probed method. */
  lemma {:induction false} TransparentAtKey(t: Table, t1: Table, bodies: Bodies, key: MethodKey, p: ProbeId,
                                            aliasName: string, args: Args, f: nat, g: nat)
    requires Installed(t, t1, key, p, aliasName) && 0 < f && 2 * f <= g
    ensures var o := Invoke(t, bodies, key, args, f);
            o.result.Success? ==>
              Invoke(t1, bodies, key, args, g) == Outcome(o.result, Expand(o.trace, key, p, AliasOf(key, aliasName)))
    decreases f, 0
  {
    assert WrappedAt(t, t1, key, p, aliasName);
    match NextOf(t[key].impl, bodies, key, args)
    case Done(v) =>
      AtKeyDone(t, t1, bodies, key, p, aliasName, args, f, g, v);
    case Forward(k2, a2) =>
      TransparentAll(t, t1, bodies, key, p, aliasName, k2, a2, f - 1, g - 2);
      AtKeyForward(t, t1, bodies, key, p, aliasName, args, f, g, k2, a2);
  }

  /** Transparency at an unchanged slot `s` whose body returns at once. */
  lemma ElsewhereDone(t: Table, t1: Table, bodies: Bodies, key: MethodKey, p: ProbeId,
                      aliasName: string, s: MethodKey, args: Args, f: nat, g: nat, v: int)
    requires s != key && s in t && s in t1 && t1[s] == t[s] && 0 < f <= g
    requires NextOf(t[s].impl, bodies, s, args) == Done(v)
    ensures var o := Invoke(t, bodies, s, args, f);
            Invoke(t1, bodies, s, args, g) == Outcome(o.result, Expand(o.trace, key, p, AliasOf(key, aliasName)))
  {
    InvokeDone(t, bodies, s, args, f, v);
    InvokeDone(t1, bodies, s, args, g, v);
    assert Expand([Frame(s, None)], key, p, AliasOf(key, aliasName)) == [Frame(s, None)];
  }

  /** Transparency at an unchanged slot `s` that calls on, given transparency of that call. */
  lemma ElsewhereForward(t: Table, t1: Table, bodies: Bodies, key: MethodKey, p: ProbeId,
                         aliasName: string, s: MethodKey, args: Args, f: nat, g: nat, k2: MethodKey, a2: Args)
    requires s != key && s in t && s in t1 && t1[s] == t[s] && 0 < f <= g
    requires NextOf(t[s].impl, bodies, s, args) == Forward(k2, a2)
    requires var sub := Invoke(t, bodies, k2, a2, f - 1);
             sub.result.Success? ==>
               Invoke(t1, bodies, k2, a2, g - 1) == Outcome(sub.result, Expand(sub.trace, key, p, AliasOf(key, aliasName)))
    ensures var o := Invoke(t, bodies, s, args, f);
            o.result.Success? ==>
              Invoke(t1, bodies, s, args, g) == Outcome(o.result, Expand(o.trace, key, p, AliasOf(key, aliasName)))
  {
    InvokeForward(t, bodies, s, args, f, k2, a2);
    InvokeForward(t1, bodies, s, args, g, k2, a2);
    ExpandCons(Frame(s, HitOf(t[s].impl)), Invoke(t, bodies, k2, a2, f - 1).trace, key, p, AliasOf(key, aliasName));
  }

  /** The inductive step of transparency for a call entering any other method. */
  lemma {:induction false} TransparentElsewhere(t: Table, t1: Table, bodies: Bodies, key: MethodKey, p: ProbeId,
                                                aliasName: string, s: MethodKey, args: Args, f: nat, g: nat)
    requires Installed(t, t1, key, p, aliasName) && 0 < f && 2 * f <= g
    requires s in t && s != key
    ensures var o := Invoke(t, bodies, s, args, f);
            o.result.Success? ==>
              Invoke(t1, bodies, s, args, g) == Outcome(o.result, Expand(o.trace, key, p, AliasOf(key, aliasName)))
    decreases f, 0
  {
    assert s in t1 && t1[s] == t[s];
    match NextOf(t[s].impl, bodies, s, args)
    case Done(v) =>
      ElsewhereDone(t, t1, bodies, key, p, aliasName, s, args, f, g, v);
    case Forward(k2, a2) =>
      TransparentAll(t, t1, bodies, key, p, aliasName, k2, a2, f - 1, g - 1);
      ElsewhereForward(t, t1, bodies, key, p, aliasName, s, args, f, g, k2, a2);
  }

  /** Every call that returns normally without the wrapper is transparent to it. */
  lemma {:induction false} TransparentAll(t: Table, t1: Table, bodies: Bodies, key: MethodKey, p: ProbeId,
                                          aliasName: string, s: MethodKey, args: Args, f: nat, g: nat)
    requires Installed(t, t1, key, p, aliasName) && 2 * f <= g
    ensures var o := Invoke(t, bodies, s, args, f);
            o.result.Success? ==>
              Invoke(t1, bodies, s, args, g) == Outcome(o.result, Expand(o.trace, key, p, AliasOf(key, aliasName)))
    decreases f, 1
  {
    if f > 0 && s in t {
      if s == key {
        TransparentAtKey(t, t1, bodies, key, p, aliasName, args, f, g);
      } else {
        TransparentElsewhere(t, t1, bodies, key, p, aliasName, s, args, f, g);
      }
    }
  }

  /**
   * Transparency of a probe: whatever a call returns before `enable!`
   * installs the wrapper for `p` on `key`, it returns the same afterwards on
   * any stack `g` of at least twice the depth.  Each entry into `key` now
   * passes through the wrapper and the alias; `p` is counted once per entry
   * and no other probe's count changes.
   */
  lemma InstallTransparent(t: Table, bodies: Bodies, key: MethodKey, p: ProbeId,
                           aliasName: string, s: MethodKey, args: Args, f: nat, g: nat)
    requires key in t && AliasOf(key, aliasName) !in t && 2 * f <= g
    requires Invoke(t, bodies, s, args, f).result.Success?
    ensures var o := Invoke(t, bodies, s, args, f);
            var o1 := Invoke(Install(t, key, p, aliasName), bodies, s, args, g);
            && o1 == Outcome(o.result, Expand(o.trace, key, p, AliasOf(key, aliasName)))
            && Hits(o1.trace, p) == Hits(o.trace, p) + Entries(o.trace, key)
            && (forall q :: q != p ==> Hits(o1.trace, q) == Hits(o.trace, q))
  {
    var ak := AliasOf(key, aliasName);
    var o := Invoke(t, bodies, s, args, f);
    TransparentAll(t, Install(t, key, p, aliasName), bodies, key, p, aliasName, s, args, f, g);
    ExpandCounts(o.trace, key, p, ak, p, key);
    forall q | q != p
      ensures Hits(Expand(o.trace, key, p, ak), q) == Hits(o.trace, q)
    {
      ExpandCounts(o.trace, key, p, ak, q, key);
    }
  }

  /** The body of `Potato.recursive_class_method(n)`: return at 1, else recurse on n-1. */
  function Countdown(member: string, args: Args): Behaviour
  {
    if |args.positional| == 0 || args.positional[0] == 1 then Returns(0)
    else CallsSelf(member, args.(positional := [args.positional[0] - 1] + args.positional[1..]))
  }

  /** `n` entries into `key` by its own body, none counted. */
  function Plain(key: MethodKey, n: nat): (r: seq<Frame>)
    ensures |r| == n && forall i :: 0 <= i < n ==> r[i] == Frame(key, None)
  {
    if n == 0 then [] else [Frame(key, None)] + Plain(key, n - 1)
  }

  /** Without a probe, a countdown from `n` enters its method `n` times and returns 0. */
  lemma {:induction false} CountdownEntries(t: Table, bodies: Bodies, key: MethodKey, b: BodyId,
                                            n: nat, blk: Option<BodyId>, f: nat)
    requires key in t && t[key].impl == Original(b)
    requires forall a :: bodies(b, a) == Countdown(key.name, a)
    requires 1 <= n <= f
    ensures Invoke(t, bodies, key, Args([n], blk), f) == Outcome(Success(0), Plain(key, n))
    decreases n
  {
    assert bodies(b, Args([n], blk)) == Countdown(key.name, Args([n], blk));
    if n > 1 {
      CountdownEntries(t, bodies, key, b, n - 1, blk, f - 1);
      assert Args([n], blk).(positional := [n - 1] + [n][1..]) == Args([n - 1], blk);
      assert key.(name := key.name) == key;
    } else {
      assert Plain(key, 1) == [Frame(key, None)];
    }
  }

  /** Self-recursion of depth `n` through an installed wrapper counts `n` calls. */
  lemma RecursionCounted(t: Table, bodies: Bodies, key: MethodKey, b: BodyId, p: ProbeId,
                         aliasName: string, n: nat, blk: Option<BodyId>)
    requires key in t && t[key].impl == Original(b) && AliasOf(key, aliasName) !in t
    requires forall a :: bodies(b, a) == Countdown(key.name, a)
    requires 1 <= n
    ensures var o := Invoke(Install(t, key, p, aliasName), bodies, key, Args([n], blk), 2 * n);
            o.result == Success(0) && Hits(o.trace, p) == n
  {
    CountdownEntries(t, bodies, key, b, n, blk, n);
    InstallTransparent(t, bodies, key, p, aliasName, key, Args([n], blk), n, 2 * n);
    HitsNone(Plain(key, n), p);
    PlainEntries(key, n);
  }

  lemma {:induction false} PlainEntries(key: MethodKey, n: nat)
    ensures Entries(Plain(key, n), key) == n
  {
    if n > 0 {
      PlainEntries(key, n - 1);
    }
  }

  /**
   * A wrapper whose alias slot holds another wrapper sending to that same
   * alias never returns: each call exhausts the stack.
   */
  lemma {:induction false} SelfDelegationExhausts(t: Table, bodies: Bodies, key: MethodKey, args: Args, f: nat)
    requires key in t && t[key].impl.Counting? && t[key].impl.delegate == key.name
    ensures Invoke(t, bodies, key, args, f).result == Failure(SystemStackError)
    decreases f
  {
    if f > 0 {
      assert key.(name := key.name) == key;
      SelfDelegationExhausts(t, bodies, key, args, f - 1);
    }
  }

  /**
   * Installing a second wrapper on a member that already carries one (two
   * probes on the same target) makes every call to the member exhaust the
   * stack: the alias now holds the first wrapper, which sends to the alias.
   */
  lemma DoubleInstallExhausts(t: Table, bodies: Bodies, key: MethodKey, p1: ProbeId, p2: ProbeId,
                              aliasName: string, args: Args, f: nat)
    requires key in t && aliasName != key.name
    ensures var t2 := Install(Install(t, key, p1, aliasName), key, p2, aliasName);
            Invoke(t2, bodies, key, args, f).result == Failure(SystemStackError)
  {
    var ak := AliasOf(key, aliasName);
    var t1 := Install(t, key, p1, aliasName);
    var t2 := Install(t1, key, p2, aliasName);
    assert t2[ak] == t1[key] == Entry(Counting(p1, aliasName), Public);
    if f > 0 {
      SelfDelegationExhausts(t2, bodies, ak, args, f - 1);
    }
  }
}

=== FILE: names.dfy ===
/**
 * Probe names: `Owner#member` names an instance method, `Owner.member` a
 * method of Owner's singleton class.  `parse_name` matches the name against
 * the regular expression `(.*)(\.|\#)(.*)`, whose `.` does not match a line
 * feed and whose first group is greedy.
 */
module ProbeNames {
  import opened Base

  /** Which method table of the owner the member lives in. */
  datatype Kind = Instance | Singleton   // Ruby's `:instance` and `:class`

  /** A parsed probe name (`class_name`, `@type`, `method_name`). */
  datatype Target = Target(className: string, kind: Kind, methodName: string)

  predicate IsSep(c: char) { c == '.' || c == '#' }

  predicate NoSep(s: string)
  {
    forall i :: 0 <= i < |s| ==> !IsSep(s[i])
  }

  predicate NoNewline(s: string)
  {
    forall i :: 0 <= i < |s| ==> s[i] != '\n'
  }

  /** The separator character that selects `kind`. */
  function SepOf(kind: Kind): char
  {
    if kind == Instance then '#' else '.'
  }

  /** The name a target is written as: owner, separator, member. */
  function Display(t: Target): string
  {
    t.className + [SepOf(t.kind)] + t.methodName
  }

  /** Index of the first `.` or `#`. */
  function FirstSep(s: string): (i: nat)
    requires !NoSep(s)
    ensures i < |s| && IsSep(s[i]) && NoSep(s[..i])
  {
    if IsSep(s[0]) then 0
    else
      var j := FirstSep(s[1..]);
      assert s[..j + 1] == [s[0]] + s[1..][..j];
      j + 1
  }

  /** Start of the line holding index `j`. */
  function LineStart(s: string, j: nat): (k: nat)
    requires j <= |s|
    ensures k <= j && (k == 0 || s[k - 1] == '\n')
    ensures forall m :: k <= m < j ==> s[m] != '\n'
  {
    if j == 0 || s[j - 1] == '\n' then j else LineStart(s, j - 1)
  }

  /** End (exclusive) of the line holding index `j`. */
  function LineEnd(s: string, j: nat): (k: nat)
    requires j <= |s|
    ensures j <= k <= |s| && (k == |s| || s[k] == '\n')
    ensures forall m :: j <= m < k ==> s[m] != '\n'
    decreases |s| - j
  {
    if j == |s| || s[j] == '\n' then j else LineEnd(s, j + 1)
  }

  /** Index of the last separator in `s[lo..hi]`. */
  function LastSep(s: string, lo: nat, hi: nat): (k: nat)
    requires lo <= hi <= |s|
    requires exists m :: lo <= m < hi && IsSep(s[m])
    ensures lo <= k < hi && IsSep(s[k])
    ensures forall m :: k < m < hi ==> !IsSep(s[m])
    decreases hi
  {
    if IsSep(s[hi - 1]) then hi - 1 else LastSep(s, lo, hi - 1)
  }

  /**
   * The bounds of the text the regular expression matches: the line holding
   * the first separator of the name.
   */
  function MatchedLine(name: string): (span: (nat, nat))
    requires !NoSep(name)
    ensures span.0 <= span.1 <= |name|
    ensures NoNewline(name[span.0..span.1])
    ensures span.0 == 0 || name[span.0 - 1] == '\n'
    ensures span.1 == |name| || name[span.1] == '\n'
    ensures NoSep(name[..span.0]) && !NoSep(name[span.0..span.1])
    ensures NoNewline(name) ==> span == (0, |name|)
  {
    var f := FirstSep(name);
    var lo := LineStart(name, f);
    var hi := LineEnd(name, f);
    assert name[..lo] == name[..f][..lo];
    assert name[lo..hi][f - lo] == name[f];
    (lo, hi)
  }

  /** The target obtained by splitting `name[lo..hi]` at index `k`. */
  function SplitAt(name: string, lo: nat, k: nat, hi: nat): (t: Target)
    requires lo <= k < hi <= |name| && IsSep(name[k])
    ensures Display(t) == name[lo..hi]
    ensures (forall m :: k < m < hi ==> !IsSep(name[m])) ==> NoSep(t.methodName)
  {
    var t := Target(name[lo..k], if name[k] == '#' then Instance else Singleton, name[k + 1..hi]);
    assert name[lo..hi] == name[lo..k] + [name[k]] + name[k + 1..hi];
    assert forall i :: 0 <= i < |t.methodName| ==> t.methodName[i] == name[k + 1 + i];
    t
  }

  /** A line that holds a separator has a last one. */
  lemma LineHasSep(name: string, lo: nat, hi: nat)
    requires lo <= hi <= |name| && !NoSep(name[lo..hi])
    ensures exists m :: lo <= m < hi && IsSep(name[m])
  {
    var line := name[lo..hi];
    var i :| 0 <= i < |line| && IsSep(line[i]);
    assert name[lo + i] == line[i];
  }

  /**
   * `parse_name`: splits the matched line at its last separator; fails with
   * `ProbeNameError` when the name has no separator at all.
   */
  function ParseName(name: string): (r: Result<Target, RubyError>)
    ensures r.Failure? <==> NoSep(name)
    ensures r.Failure? ==> r.error == ProbeNameError(name)
    ensures r.Success? ==>
      && NoSep(r.value.methodName)
      && Display(r.value) == name[MatchedLine(name).0..MatchedLine(name).1]
    ensures r.Success? && NoNewline(name) ==>
      && Display(r.value) == name
      && (name[|r.value.className|] == '#' <==> r.value.kind == Instance)
  {
    if NoSep(name) then Failure(ProbeNameError(name))
    else
      var span := MatchedLine(name);
      LineHasSep(name, span.0, span.1);
      var k := LastSep(name, span.0, span.1);
      Success(SplitAt(name, span.0, k, span.1))
  }

  /**
   * The inverse direction: a target whose member part has no separator and
   * whose text has no line feed is recovered from its display string, even
   * when its owner contains `.`, `#` or `::`.
   */
  lemma ParseDisplay(t: Target)
    requires NoSep(t.methodName)
    requires NoNewline(t.className) && NoNewline(t.methodName)
    ensures ParseName(Display(t)) == Success(t)
  {
    var s := Display(t);
    var c := |t.className|;
    assert s[c] == SepOf(t.kind);
    assert NoNewline(s) by {
      forall i | 0 <= i < |s| ensures s[i] != '\n' {
        if i < c { assert s[i] == t.className[i]; }
        else if i > c { assert s[i] == t.methodName[i - c - 1]; }
      }
    }
    assert MatchedLine(s) == (0, |s|);
    LineHasSep(s, 0, |s|);
    var k := LastSep(s, 0, |s|);
    forall m | c < m < |s| ensures !IsSep(s[m]) { assert s[m] == t.methodName[m - c - 1]; }
    assert k == c;
    assert s[..c] == t.className;
    assert s[c + 1..] == t.methodName;
  }

  lemma LavaMonsterHasNoSep()
    ensures NoSep("Lava$monster")
  {
    var s := "Lava$monster";
    forall i | 0 <= i < |s| ensures !IsSep(s[i]) {
      assert s[i] in {'L', 'a', 'v', '$', 'm', 'o', 'n', 's', 't', 'e', 'r'};
    }
  }

  /** The example from the test suite: a name with neither separator. */
  lemma LavaMonsterRejected()
    ensures ParseName("Lava$monster") == Failure(ProbeNameError("Lava$monster"))
  {
    LavaMonsterHasNoSep();
  }
}

=== FILE: properties.dfy ===
/**
 * What the probe lifecycle promises: `enable!` installs exactly one wrapper
 * and counts every entry into the member without changing what calls
 * return, `disable!` undoes it, the hooks place deferred probes, and
 * `instrument` with a block leaves the registry as it found it.
 */
module Properties {
  import opened Base
  import opened ProbeNames
  import opened Constants
  import opened Methods
  import opened Lifecycle
  import Registry

  /**
   * The method-added hook for `key` cannot place any probe other than `id`:
   * the hook is off, or the probe registered under the event's name is
   * `id`, already enabled, being enabled, or gone.
   */
  predicate Quiet(w: World, id: ProbeId, key: MethodKey)
  {
    HookFor(key.kind) !in w.hooks ||
    match Registry.Lookup(w.registry, EventName(w.universe, key))
    case None => true
    case Some(j) => j == id || j !in w.probes || Enabled(w.probes[j]) || j in w.installing
  }

  /** A quiet event changes nothing while `id` is being enabled or is enabled. */
  lemma FireQuiet(lib: Library, w: World, id: ProbeId, key: MethodKey)
    requires Quiet(w, id, key) && id in w.probes
    requires id in w.installing || Enabled(w.probes[id])
    ensures Fire(lib, w, key) == w
  {
    if HookFor(key.kind) in w.hooks {
      var name := EventName(w.universe, key);
      match Registry.Lookup(w.registry, name)
      case None =>
      case Some(j) =>
        if j in w.probes && Ready(w, w.probes[j]) {
          assert j in w.installing;
          assert Enable(lib, w, j) == w;
        }
    }
  }

  /** The world an undisturbed `enable!` of `id` on slot `key` produces. */
  function AfterEnable(lib: Library, w: World, id: ProbeId, key: MethodKey): World
    requires id in w.probes && key in w.table
  {
    w.(table := Install(w.table, key, id, AliasName(lib, key.name)),
       probes := w.probes[id := w.probes[id].(original := Some(Captured(key, w.table[key].impl)))])
  }

  /** The conditions under which `enable!` of `id` is undisturbed by other probes. */
  predicate Undisturbed(lib: Library, w: World, id: ProbeId, key: MethodKey)
  {
    && id in w.probes && id !in w.installing
    && TargetKey(w.universe, w.probes[id].target) == Some(key) && key in w.table
    && Quiet(w, id, key) && Quiet(w, id, AliasKey(lib, key))
  }

  /**
   * `enable!` captures the member, moves it to the alias slot and puts a
   * wrapper counting for the probe in its place; nothing else changes.
   */
  lemma EnableInstalls(lib: Library, w: World, id: ProbeId, key: MethodKey)
    requires Undisturbed(lib, w, id, key)
    ensures Enable(lib, w, id) == AfterEnable(lib, w, id, key)
  {
    var ak := AliasKey(lib, key);
    var w1 := w.(installing := w.installing + {id}, table := w.table[ak := w.table[key]]);
    FireQuiet(lib, w1, id, ak);
    var w3 := w1.(table := w1.table[key := Entry(Counting(id, AliasName(lib, key.name)), Public)]);
    FireQuiet(lib, w3, id, key);
    assert w3.(installing := w.installing) == w.(table := Install(w.table, key, id, AliasName(lib, key.name)));
  }

  /**
   * A call that returns before `enable!` returns the same afterwards, on a
   * stack twice as deep; the probe counts every entry into its member and
   * no other probe's count changes.
   */
  lemma EnableCounts(lib: Library, bodies: Bodies, w: World, id: ProbeId, key: MethodKey,
                     s: MethodKey, args: Args, viaSend: bool, f: nat, g: nat)
    requires Undisturbed(lib, w, id, key) && AliasKey(lib, key) !in w.table && 2 * f <= g
    requires Call(bodies, f, w, s, args, viaSend).Ok?
    ensures var before := Call(bodies, f, w, s, args, viaSend);
            var after := Call(bodies, g, Enable(lib, w, id), s, args, viaSend);
            var o := Invoke(w.table, bodies, s, args, f);
            && after.Ok? && after.value == before.value
            && after.world.probes[id].calls == before.world.probes[id].calls + Entries(o.trace, key)
            && forall q :: q in w.probes && q != id ==> after.world.probes[q].calls == before.world.probes[q].calls
  {
    EnableInstalls(lib, w, id, key);
    var aliasName := AliasName(lib, key.name);
    var t1 := Install(w.table, key, id, aliasName);
    InstallTransparent(w.table, bodies, key, id, aliasName, s, args, f, g);
    var w1 := AfterEnable(lib, w, id, key);
    var o := Invoke(w.table, bodies, s, args, f);
    var o1 := Invoke(t1, bodies, s, args, g);
    CallSucceeds(bodies, f, w, s, args, viaSend);
    assert s in t1 && (viaSend || t1[s].visibility == Public) by {
      if s != key {
        assert s != AliasOf(key, aliasName);
      }
    }
    CallSucceeds(bodies, g, w1, s, args, viaSend);
    OthersCountAlike(w.probes, id, w1.probes[id], o.trace, o1.trace);
  }

  /** Traces that hit every probe but `id` equally count every probe but `id` equally. */
  lemma OthersCountAlike(probes: map<ProbeId, Probe>, id: ProbeId, p: Probe, a: seq<Frame>, b: seq<Frame>)
    requires forall q :: q != id ==> Hits(b, q) == Hits(a, q)
    ensures forall q :: q in probes && q != id ==>
              AddHits(probes[id := p], b)[q].calls == AddHits(probes, a)[q].calls
  {
  }

  /** A call into a reachable member that returns: every wrapper entered is counted. */
  lemma CallSucceeds(bodies: Bodies, d: nat, w: World, s: MethodKey, args: Args, viaSend: bool)
    requires s in w.table && (viaSend || w.table[s].visibility == Public)
    requires Invoke(w.table, bodies, s, args, d).result.Success?
    ensures var o := Invoke(w.table, bodies, s, args, d);
            Call(bodies, d, w, s, args, viaSend) == Ok(w.(probes := AddHits(w.probes, o.trace)), o.result.value)
  {
  }

  /**
   * `define_method` inside `class_eval` defines a public method, so the
   * wrapper makes a private or protected member callable from outside.
   */
  lemma PrivateBecomesPublic(lib: Library, bodies: Bodies, depth: nat, w: World, id: ProbeId,
                             key: MethodKey, args: Args)
    requires Undisturbed(lib, w, id, key) && w.table[key].visibility != Public
    ensures Call(bodies, depth, w, key, args, false) == Raised(w, NoMethodError(key.name))
    ensures Enable(lib, w, id).table[key].visibility == Public
  {
    EnableInstalls(lib, w, id, key);
  }

  /** The other probes see the same quiet events once `id` is enabled. */
  lemma QuietAfterEnable(lib: Library, w: World, id: ProbeId, key: MethodKey, k: MethodKey)
    requires Undisturbed(lib, w, id, key) && Quiet(w, id, k)
    ensures Quiet(AfterEnable(lib, w, id, key), id, k)
  {
  }

  /**
   * `disable!` right after an undisturbed `enable!` removes the alias and
   * puts the captured original back, as a public method: the table is the
   * one before `enable!` except for that visibility.
   */
  lemma EnableDisable(lib: Library, w: World, id: ProbeId, key: MethodKey)
    requires Undisturbed(lib, w, id, key) && AliasKey(lib, key) !in w.table && lib.aliasPrefix != ""
    ensures var w1 := Enable(lib, w, id);
            Disable(lib, w1, id) == Ok(w1.(table := w.table[key := Entry(w.table[key].impl, Public)]), ())
    ensures w.table[key].visibility == Public ==> Disable(lib, Enable(lib, w, id), id).world.table == w.table
  {
    EnableInstalls(lib, w, id, key);
    var w1 := AfterEnable(lib, w, id, key);
    var ak := AliasKey(lib, key);
    var e := Entry(w.table[key].impl, Public);
    var w2 := w1.(table := w1.table[key := e]);
    QuietAfterEnable(lib, w, id, key, key);
    FireQuiet(lib, w2, id, key);
    assert ak != key by { assert |ak.name| > |key.name|; }
    assert w2.table - {ak} == w.table[key := e];
    assert w.table[key].visibility == Public ==> w.table[key := e] == w.table;
  }

  /**
   * `disable!` does not reset `enabled?`: called a second time it defines
   * the original again and then fails to remove the alias, already gone.
   */
  lemma DisableTwiceRaises(lib: Library, w: World, id: ProbeId, key: MethodKey)
    requires Undisturbed(lib, w, id, key) && AliasKey(lib, key) !in w.table && lib.aliasPrefix != ""
    ensures var w2 := Disable(lib, Enable(lib, w, id), id).world;
            Disable(lib, w2, id).Raised? && Disable(lib, w2, id).error == NameError(AliasName(lib, key.name))
  {
    EnableDisable(lib, w, id, key);
    EnableInstalls(lib, w, id, key);
    var w1 := AfterEnable(lib, w, id, key);
    var e := Entry(w.table[key].impl, Public);
    var w2 := w1.(table := w.table[key := e]);
    assert Disable(lib, Enable(lib, w, id), id).world == w2;
    QuietAfterEnable(lib, w, id, key, key);
    assert Quiet(w2, id, key);
    assert w2.probes[id].original == Some(Captured(key, w.table[key].impl));
    assert TargetKey(w2.universe, w2.probes[id].target) == Some(key);
    assert w2.(table := w2.table[key := e]) == w2;
    FireQuiet(lib, w2, id, key);
    assert AliasKey(lib, key) !in w2.table by { assert AliasKey(lib, key) != key by { assert |AliasName(lib, key.name)| > |key.name|; } }
    assert Disable(lib, w2, id) == Raised(w2, NameError(AliasName(lib, key.name)));
  }

  /**
   * After `disable!` the probe's count stays put whatever is called, when
   * no other slot carried a wrapper of this probe.
   */
  lemma DisabledNotCounted(lib: Library, bodies: Bodies, depth: nat, w: World, id: ProbeId, key: MethodKey,
                           s: MethodKey, args: Args, viaSend: bool)
    requires Undisturbed(lib, w, id, key) && AliasKey(lib, key) !in w.table && lib.aliasPrefix != ""
    requires !Wraps(w.table, id)
    ensures var w2 := Disable(lib, Enable(lib, w, id), id).world;
            id in w2.probes && Call(bodies, depth, w2, s, args, viaSend).world.probes[id] == w2.probes[id]
  {
    EnableDisable(lib, w, id, key);
    var w2 := Disable(lib, Enable(lib, w, id), id).world;
    assert w2.table == w.table[key := Entry(w.table[key].impl, Public)];
    assert !Wraps(w2.table, id) by {
      forall k | k in w2.table
        ensures !(w2.table[k].impl.Counting? && w2.table[k].impl.probe == id)
      {
        assert w2.table[k].impl == w.table[k].impl;
      }
    }
  }

  /** `place_by_name` of a name no probe is registered under changes nothing. */
  lemma PlaceByNameAbsent(lib: Library, w: World, name: string)
    requires Registry.Lookup(w.registry, name).None?
    ensures PlaceByName(lib, w, name) == w
  {
  }

  /**
   * `place_by_name` enables the probe registered under exactly that name
   * when its target is defined, and leaves everything alone when it is not
   * ready.
   */
  lemma PlaceByNamePlaces(lib: Library, w: World, name: string, id: ProbeId)
    requires Registry.Lookup(w.registry, name) == Some(id) && id in w.probes && id !in w.installing
    ensures TargetDefined(w, w.probes[id]) ==> Enabled(PlaceByName(lib, w, name).probes[id])
    ensures !Ready(w, w.probes[id]) ==> PlaceByName(lib, w, name) == w
  {
  }

  /**
   * A deferred probe: defining its member later, once the hooks are
   * installed, enables the probe registered under the event's name.
   */
  lemma DefinitionPlaces(lib: Library, bodies: Bodies, depth: nat, w: World, id: ProbeId,
                         key: MethodKey, b: BodyId, vis: Visibility)
    requires HookFor(key.kind) in w.hooks
    requires Registry.Lookup(w.registry, EventName(w.universe, key)) == Some(id)
    requires id in w.probes && id !in w.installing
    requires TargetKey(w.universe, w.probes[id].target) == Some(key)
    ensures var r := Step(lib, bodies, depth, w, Def(key, b, vis));
            r.Ok? && Enabled(r.world.probes[id])
  {
    var w1 := w.(table := w.table[key := Entry(Original(b), vis)]);
    PlaceByNamePlaces(lib, w1, EventName(w.universe, key), id);
  }

  /**
   * A deferred probe that is not yet enabled, whose alias event is quiet:
   * defining its member is the plain definition followed by an undisturbed
   * `enable!`, so the slot then holds the wrapper and the alias the new body.
   */
  lemma DefinitionWraps(lib: Library, bodies: Bodies, depth: nat, w: World, id: ProbeId,
                        key: MethodKey, b: BodyId, vis: Visibility)
    requires HookFor(key.kind) in w.hooks
    requires Registry.Lookup(w.registry, EventName(w.universe, key)) == Some(id)
    requires id in w.probes && id !in w.installing && !Enabled(w.probes[id])
    requires TargetKey(w.universe, w.probes[id].target) == Some(key)
    requires Quiet(w, id, AliasKey(lib, key))
    ensures var w1 := w.(table := w.table[key := Entry(Original(b), vis)]);
            var r := Step(lib, bodies, depth, w, Def(key, b, vis));
            r.Ok? && r.world == AfterEnable(lib, w1, id, key)
  {
    var w1 := w.(table := w.table[key := Entry(Original(b), vis)]);
    assert Quiet(w1, id, key);
    assert Quiet(w1, id, AliasKey(lib, key));
    EnableInstalls(lib, w1, id, key);
    assert Ready(w1, w1.probes[id]);
    assert Fire(lib, w1, key) == Enable(lib, w1, id);
  }

  /**
   * The event's name is the probe's own name when the probe's owner is
   * written as the module's name: `Dummy7#foo` is placed when `foo` is
   * defined in `Dummy7`, `Dummies::Dummy6.foo` when `self.foo` is defined in
   * `Dummies::Dummy6`.
   */
  lemma CanonicalNameMatches(u: Universe, name: string, m: ModId)
    requires NoNewline(name) && ParseName(name).Success?
    requires Constantize(u, ParseName(name).value.className) == Some(m)
    requires ModuleName(u, m) == ParseName(name).value.className
    ensures EventName(u, TargetKey(u, ParseName(name).value).value) == name
  {
    var t := ParseName(name).value;
    assert Display(t) == name;
  }

  /**
   * The `included` hook enables every registered probe that was ready when
   * the module was included.
   */
  lemma IncludeEnablesReady(lib: Library, bodies: Bodies, depth: nat, w: World, host: ModId, mixin: ModId, j: nat)
    requires Included in w.hooks && w.installing == {}
    requires j < |w.registry| && w.registry[j].value in w.probes && Ready(w, w.probes[w.registry[j].value])
    ensures var r := Step(lib, bodies, depth, w, Include(host, mixin));
            r.Ok? && Enabled(r.world.probes[w.registry[j].value])
  {
    assert Step(lib, bodies, depth, w, Include(host, mixin)) == Ok(IncludedHook(lib, w), ());
  }

  /**
   * `Probe.new`: a fresh probe has no calls and is enabled exactly when its
   * target is already defined; a name without separator raises.
   */
  lemma ConstructFresh(lib: Library, w: World, name: string)
    requires w.nextId !in w.probes && w.nextId !in w.installing
    ensures var r := Construct(lib, w, name);
            r.Ok? ==> (Enabled(r.world.probes[r.value]) <==> TargetDefined(w, r.world.probes[r.value]))
  {
  }

  /**
   * Between top-level operations no `enable!` is in progress, every probe
   * was allocated before `nextId`, and the registry is a Hash: each name
   * occurs once and maps to a probe of that name.
   */
  predicate Valid(w: World)
  {
    && w.installing == {} && Registry.Distinct(w.registry)
    && (forall i :: i in w.probes ==> i < w.nextId)
    && (forall j :: 0 <= j < |w.registry| ==>
          w.registry[j].value in w.probes && w.probes[w.registry[j].value].name == w.registry[j].name)
  }

  /** Operations that keep the probes and the registry keep the invariant. */
  lemma SameProbesValid(w: World, r: World)
    requires Valid(w) && SameProbes(w, r)
    ensures Valid(r)
  {
  }

  /** The actions of a block keep the invariant, also when one raises. */
  lemma RunValid(lib: Library, bodies: Bodies, depth: nat, w: World, actions: seq<Action>)
    requires Valid(w)
    ensures Valid(Run(lib, bodies, depth, w, actions).world)
  {
    SameProbesValid(w, Run(lib, bodies, depth, w, actions).world);
  }

  /** Creating and registering a probe keeps the invariant. */
  lemma BeginValid(lib: Library, w: World, name: string)
    requires Valid(w)
    ensures Valid(Begin(lib, w, name).world)
  {
    var r := Begin(lib, w, name);
    if r.Ok? {
      RegisterValid(w, r.world, name, r.value);
    }
  }

  /** A world with one more probe, registered under its name, is valid when the old one was. */
  lemma RegisterValid(w: World, r: World, name: string, id: ProbeId)
    requires Valid(w) && id == w.nextId && r.nextId == id + 1 && r.installing == w.installing
    requires r.probes.Keys == w.probes.Keys + {id} && r.registry == Registry.Store(w.registry, name, id)
    requires r.probes[id].name == name
    requires forall i :: i in w.probes ==> Keeps(w.probes[i], r.probes[i])
    ensures Valid(r)
  {
    Registry.StoreSlots(w.registry, name, id);
    Registry.StoreDistinct(w.registry, name, id);
    forall j | 0 <= j < |r.registry|
      ensures r.registry[j].value in r.probes && r.probes[r.registry[j].value].name == r.registry[j].name
    {
      if r.registry[j] != Registry.Slot(name, id) {
        var k :| 0 <= k < |w.registry| && w.registry[k] == r.registry[j];
      }
    }
  }

  /** Unregistering a name keeps the invariant. */
  lemma DeleteValid(w: World, name: string)
    requires Valid(w)
    ensures Valid(w.(registry := Registry.Delete(w.registry, name)))
  {
    Registry.DeleteSlots(w.registry, name);
    Registry.DeleteDistinct(w.registry, name);
    var w5 := w.(registry := Registry.Delete(w.registry, name));
    forall j | 0 <= j < |w5.registry|
      ensures w5.registry[j].value in w5.probes && w5.probes[w5.registry[j].value].name == w5.registry[j].name
    {
      var k :| 0 <= k < |w.registry| && w.registry[k] == w5.registry[j];
    }
  }

  /** The block of `instrument` keeps the invariant, also when it raises. */
  lemma ScopedValid(lib: Library, bodies: Bodies, depth: nat, w: World, id: ProbeId, name: string,
                    actions: seq<Action>)
    requires Valid(w) && id in w.probes
    ensures Valid(Scoped(lib, bodies, depth, w, id, name, actions).world)
  {
    RunValid(lib, bodies, depth, w, actions);
    var ran := Run(lib, bodies, depth, w, actions);
    if ran.Ok? {
      var d := Disable(lib, ran.world, id);
      assert Valid(d.world);
      if d.Ok? {
        DeleteValid(d.world, name);
      }
    }
  }

  /** `instrument`, with or without a block, keeps the invariant, also when it raises. */
  lemma InstrumentValid(lib: Library, bodies: Bodies, depth: nat, w: World, name: string,
                        block: Option<seq<Action>>)
    requires Valid(w)
    ensures Valid(Instrument(lib, bodies, depth, w, name, block).world)
  {
    BeginValid(lib, w, name);
    var b := Begin(lib, w, name);
    if b.Ok? && block.Some? {
      ScopedValid(lib, bodies, depth, b.world, b.value, name, block.value);
    }
  }

  /**
   * `instrument` with a block forgets the name afterwards, together with
   * any older probe registered under it; every other name is untouched.
   */
  lemma InstrumentBlockUnregisters(lib: Library, bodies: Bodies, depth: nat, w: World, name: string,
                                   actions: seq<Action>)
    ensures var r := Instrument(lib, bodies, depth, w, name, Some(actions));
            r.Ok? ==>
              && Registry.Lookup(r.world.registry, name).None?
              && (forall n :: n != name ==> Registry.Lookup(r.world.registry, n) == Registry.Lookup(w.registry, n))
              && (Registry.Lookup(w.registry, name).None? ==> r.world.registry == w.registry)
  {
    var r := Instrument(lib, bodies, depth, w, name, Some(actions));
    if r.Ok? {
      Registry.StoreThenDelete(w.registry, name, r.value);
    }
  }

  /**
   * Two probes on the same member (the same name instrumented twice, or
   * `Foo#bar` and `::Foo#bar`): the second `enable!` moves the first
   * wrapper into the alias slot, which then sends to itself, so every call
   * of the member exhausts the stack.
   */
  lemma SecondProbeLoops(lib: Library, bodies: Bodies, w: World, id1: ProbeId, id2: ProbeId,
                         key: MethodKey, args: Args, f: nat)
    requires Undisturbed(lib, w, id1, key) && lib.aliasPrefix != ""
    requires Undisturbed(lib, AfterEnable(lib, w, id1, key), id2, key)
    ensures Invoke(Enable(lib, Enable(lib, w, id1), id2).table, bodies, key, args, f).result == Failure(SystemStackError)
  {
    EnableInstalls(lib, w, id1, key);
    EnableInstalls(lib, AfterEnable(lib, w, id1, key), id2, key);
    assert AliasName(lib, key.name) != key.name by { assert |AliasName(lib, key.name)| > |key.name|; }
    DoubleInstallExhausts(w.table, bodies, key, id1, id2, AliasName(lib, key.name), args, f);
  }

  /** `n.times { obj.m(*args) }`: the same call `n` times, up to the first exception. */
  function CallTimes(bodies: Bodies, depth: nat, w: World, key: MethodKey, args: Args, viaSend: bool, n: nat): Effect<()>
    decreases n
  {
    if n == 0 then Ok(w, ())
    else
      match Call(bodies, depth, w, key, args, viaSend)
      case Raised(w1, e) => Raised(w1, e)
      case Ok(w1, _) => CallTimes(bodies, depth, w1, key, args, viaSend, n - 1)
  }

  /** Slot `key` holds a wrapper of `id` whose alias holds a body that returns at once. */
  predicate WrapsReturning(w: World, bodies: Bodies, id: ProbeId, key: MethodKey, args: Args)
  {
    && key in w.table && w.table[key].impl.Counting? && w.table[key].impl.probe == id
    && var ak := AliasOf(key, w.table[key].impl.delegate);
       ak in w.table && w.table[ak].impl.Original? && bodies(w.table[ak].impl.body, args).Returns?
  }

  /** One call through such a wrapper returns the body's value and counts once. */
  lemma CallThroughWrapper(bodies: Bodies, depth: nat, w: World, id: ProbeId, key: MethodKey, args: Args, viaSend: bool)
    requires id in w.probes && WrapsReturning(w, bodies, id, key, args) && depth >= 2
    requires viaSend || w.table[key].visibility == Public
    ensures var r := Call(bodies, depth, w, key, args, viaSend);
            && r.Ok? && r.world.table == w.table && r.world.probes.Keys == w.probes.Keys
            && r.world.probes[id].calls == w.probes[id].calls + 1
  {
    var ak := AliasOf(key, w.table[key].impl.delegate);
    var v := bodies(w.table[ak].impl.body, args).value;
    InvokeDone(w.table, bodies, ak, args, depth - 1, v);
    InvokeForward(w.table, bodies, key, args, depth, ak, args);
    var trace := [Frame(key, Some(id)), Frame(ak, None)];
    assert Invoke(w.table, bodies, key, args, depth) == Outcome(Success(v), trace);
    assert Hits(trace, id) == 1 by {
      assert trace[1..] == [Frame(ak, None)];
      assert trace[1..][1..] == [];
      assert Hits(trace[1..], id) == 0;
    }
  }

  /** `n` calls through such a wrapper count `n`, as `11.times { … }` counts 11. */
  lemma {:induction false} TimesCounted(bodies: Bodies, depth: nat, w: World, id: ProbeId, key: MethodKey,
                                        args: Args, viaSend: bool, n: nat)
    requires id in w.probes && WrapsReturning(w, bodies, id, key, args) && depth >= 2
    requires viaSend || w.table[key].visibility == Public
    ensures var r := CallTimes(bodies, depth, w, key, args, viaSend, n);
            && r.Ok? && id in r.world.probes && r.world.probes[id].calls == w.probes[id].calls + n
            && r.world == w.(probes := r.world.probes) && r.world.probes.Keys == w.probes.Keys
            && forall i :: i in w.probes ==> r.world.probes[i] == w.probes[i].(calls := r.world.probes[i].calls)
    decreases n
  {
    if n > 0 {
      CallThroughWrapper(bodies, depth, w, id, key, args, viaSend);
      var w1 := Call(bodies, depth, w, key, args, viaSend).world;
      TimesCounted(bodies, depth, w1, id, key, args, viaSend, n - 1);
    }
  }

  /** The world `Probe.new` allocates its probe in, before any `enable!`. */
  function Allocated(w: World, name: string): World
    requires ParseName(name).Success?
  {
    w.(probes := w.probes[w.nextId := Probe(name, ParseName(name).value, 0, None)], nextId := w.nextId + 1)
  }

  /**
   * `Probe.new` of a probe whose member is already defined and whose
   * events are quiet enables it at once, undisturbed.
   */
  lemma ConstructEnables(lib: Library, w: World, name: string, key: MethodKey)
    requires w.nextId !in w.probes && w.nextId !in w.installing
    requires ParseName(name).Success? && TargetKey(w.universe, ParseName(name).value) == Some(key) && key in w.table
    requires Quiet(w, w.nextId, key) && Quiet(w, w.nextId, AliasKey(lib, key))
    ensures Undisturbed(lib, Allocated(w, name), w.nextId, key)
    ensures Construct(lib, w, name) == Ok(AfterEnable(lib, Allocated(w, name), w.nextId, key), w.nextId)
  {
    var w1 := Allocated(w, name);
    assert Quiet(w1, w.nextId, key) && Quiet(w1, w.nextId, AliasKey(lib, key));
    EnableInstalls(lib, w1, w.nextId, key);
  }

  /**
   * `instrument` without a block, for a probe enabled while it is created:
   * the probe is registered and the hooks are left as they are.
   */
  lemma InstrumentEnabledAtOnce(lib: Library, bodies: Bodies, depth: nat, w: World, name: string, key: MethodKey)
    requires w.nextId !in w.probes && w.nextId !in w.installing
    requires ParseName(name).Success? && TargetKey(w.universe, ParseName(name).value) == Some(key) && key in w.table
    requires Quiet(w, w.nextId, key) && Quiet(w, w.nextId, AliasKey(lib, key))
    ensures var w2 := AfterEnable(lib, Allocated(w, name), w.nextId, key);
            Instrument(lib, bodies, depth, w, name, None) ==
              Ok(w2.(registry := Registry.Store(w2.registry, name, w.nextId)), w.nextId)
  {
    ConstructEnables(lib, w, name, key);
  }

  /** No probe is registered under the names the three hook definitions report. */
  predicate HookEventsFree(reg: Registry.Registry<ProbeId>)
  {
    && Registry.Lookup(reg, "Module#method_added").None?
    && Registry.Lookup(reg, "Module#singleton_method_added").None?
    && Registry.Lookup(reg, "Module#included").None?
  }

  /** With nothing registered under the hooks' own names, `Deferred.enable!` only installs them. */
  lemma EnableHooksQuiet(lib: Library, w: World)
    requires HookEventsFree(w.registry)
    ensures EnableHooks(lib, w) == w.(hooks := AllHooks)
  {
    if w.hooks != AllHooks {
      var w1 := w.(hooks := w.hooks + {MethodAdded});
      PlaceByNameAbsent(lib, w1, "Module#method_added");
      var w2 := w1.(hooks := w1.hooks + {SingletonMethodAdded});
      PlaceByNameAbsent(lib, w2, "Module#singleton_method_added");
      PlaceByNameAbsent(lib, w2.(hooks := w2.hooks + {Included}), "Module#included");
    }
  }

  /**
   * `instrument` without a block, for a probe whose member is not defined
   * yet: the probe stays disabled, is registered, and the hooks are
   * installed to place it later.
   */
  lemma InstrumentDeferred(lib: Library, bodies: Bodies, depth: nat, w: World, name: string, key: MethodKey)
    requires w.nextId !in w.probes && w.nextId !in w.installing
    requires ParseName(name).Success? && TargetKey(w.universe, ParseName(name).value) == Some(key) && key !in w.table
    requires w.hooks == AllHooks || HookEventsFree(Registry.Store(w.registry, name, w.nextId))
    ensures var r := Instrument(lib, bodies, depth, w, name, None);
            var w1 := Allocated(w, name);
            && r.Ok? && r.value == w.nextId
            && r.world == w1.(registry := Registry.Store(w1.registry, name, w.nextId), hooks := AllHooks)
  {
    var w1 := Allocated(w, name);
    var w2 := w1.(registry := Registry.Store(w1.registry, name, w.nextId));
    assert !Ready(w1, w1.probes[w.nextId]);
    if w.hooks != AllHooks {
      EnableHooksQuiet(lib, w2);
    }
  }

  /** The block `n.times { obj.m(*args) }` as actions. */
  function Repeated(key: MethodKey, args: Args, viaSend: bool, n: nat): (acts: seq<Action>)
    ensures |acts| == n && forall i :: 0 <= i < n ==> acts[i] == CallMethod(key, args, viaSend)
  {
    if n == 0 then [] else [CallMethod(key, args, viaSend)] + Repeated(key, args, viaSend, n - 1)
  }

  /** Running the block of `n` calls is calling `n` times. */
  lemma {:induction false} RunRepeated(lib: Library, bodies: Bodies, depth: nat, w: World, key: MethodKey,
                                       args: Args, viaSend: bool, n: nat)
    ensures Run(lib, bodies, depth, w, Repeated(key, args, viaSend, n)) == CallTimes(bodies, depth, w, key, args, viaSend, n)
    decreases n
  {
    if n > 0 {
      var acts := Repeated(key, args, viaSend, n);
      assert acts[1..] == Repeated(key, args, viaSend, n - 1);
      match Call(bodies, depth, w, key, args, viaSend)
      case Raised(_, _) =>
      case Ok(w1, _) =>
        RunRepeated(lib, bodies, depth, w1, key, args, viaSend, n - 1);
    }
  }

  /**
   * Registering `id` under a name keeps an event quiet for `id`: the name
   * either is the event's, and then maps to `id`, or leaves the event's
   * lookup as it was.
   */
  lemma QuietRegistered(w: World, r: World, id: ProbeId, key: MethodKey, name: string)
    requires Quiet(w, id, key)
    requires r.hooks == w.hooks && r.universe == w.universe && r.installing == w.installing
    requires r.registry == Registry.Store(w.registry, name, id)
    requires r.probes.Keys <= w.probes.Keys + {id}
    requires forall i :: i in w.probes ==> i in r.probes && (Enabled(w.probes[i]) ==> Enabled(r.probes[i]))
    ensures Quiet(r, id, key)
  {
    Registry.StoreLookup(w.registry, name, id, EventName(w.universe, key));
  }

  /**
   * `disable!` of a probe that kept the original `e` of `key`, with the
   * event quiet: the member is `e` again, public, and the alias is gone.
   */
  lemma DisableRestores(lib: Library, w: World, id: ProbeId, key: MethodKey, e: Impl)
    requires id in w.probes && w.probes[id].original == Some(Captured(key, e))
    requires TargetKey(w.universe, w.probes[id].target) == Some(key)
    requires Quiet(w, id, key) && AliasKey(lib, key) in w.table && lib.aliasPrefix != ""
    ensures Disable(lib, w, id) == Ok(w.(table := w.table[key := Entry(e, Public)] - {AliasKey(lib, key)}), ())
  {
    var w1 := w.(table := w.table[key := Entry(e, Public)]);
    assert Quiet(w1, id, key);
    FireQuiet(lib, w1, id, key);
    assert AliasKey(lib, key) != key by { assert |AliasName(lib, key.name)| > |key.name|; }
  }

  /** The part of `instrument` before the block, for a probe enabled while it is created. */
  lemma BeginEnabledAtOnce(lib: Library, w: World, name: string, key: MethodKey)
    requires w.nextId !in w.probes && w.nextId !in w.installing
    requires ParseName(name).Success? && TargetKey(w.universe, ParseName(name).value) == Some(key) && key in w.table
    requires Quiet(w, w.nextId, key) && Quiet(w, w.nextId, AliasKey(lib, key))
    ensures var w2 := AfterEnable(lib, Allocated(w, name), w.nextId, key);
            Begin(lib, w, name) == Ok(w2.(registry := Registry.Store(w2.registry, name, w.nextId)), w.nextId)
  {
    ConstructEnables(lib, w, name, key);
  }

  /** The block of `instrument` that returns, followed by a `disable!` that returns. */
  lemma ScopedOk(lib: Library, bodies: Bodies, depth: nat, w: World, id: ProbeId, name: string,
                 actions: seq<Action>, w1: World, w2: World)
    requires id in w.probes
    requires Run(lib, bodies, depth, w, actions).Ok? && Run(lib, bodies, depth, w, actions).world == w1
    requires id in w1.probes && Disable(lib, w1, id) == Ok(w2, ())
    ensures var r := Scoped(lib, bodies, depth, w, id, name, actions);
            r.Ok? && r.world == w2.(registry := Registry.Delete(w2.registry, name))
  {
  }

  /** `instrument` with a block whose part before the block and whose block both return. */
  lemma InstrumentBlockOk(lib: Library, bodies: Bodies, depth: nat, w: World, name: string, actions: seq<Action>,
                          w1: World, id: ProbeId)
    requires Begin(lib, w, name) == Ok(w1, id) && id in w1.probes
    requires Scoped(lib, bodies, depth, w1, id, name, actions).Ok?
    ensures var r := Instrument(lib, bodies, depth, w, name, Some(actions));
            r.Ok? && r.value == id && r.world == Scoped(lib, bodies, depth, w1, id, name, actions).world
  {
  }

  /**
   * The block `n.times { obj.m(*args) }` of `instrument`, for a probe whose
   * wrapper sits on `key` over the original `t0[key]`: the `n` calls are
   * counted, then `disable!` leaves `t0` with the member made public, and
   * no wrapper of the probe remains.
   */
  lemma BlockRestores(lib: Library, bodies: Bodies, depth: nat, w: World, id: ProbeId, name: string,
                      key: MethodKey, args: Args, viaSend: bool, n: nat, t0: Table)
    requires lib.aliasPrefix != "" && depth >= 2
    requires key in t0 && AliasKey(lib, key) !in t0 && !Wraps(t0, id)
    requires w.table == Install(t0, key, id, AliasName(lib, key.name))
    requires id in w.probes && w.probes[id].original == Some(Captured(key, t0[key].impl))
    requires TargetKey(w.universe, w.probes[id].target) == Some(key) && Quiet(w, id, key)
    requires WrapsReturning(w, bodies, id, key, args) && (viaSend || w.table[key].visibility == Public)
    ensures var r := Scoped(lib, bodies, depth, w, id, name, Repeated(key, args, viaSend, n));
            && r.Ok? && id in r.world.probes && r.world.probes[id].calls == w.probes[id].calls + n
            && r.world.table == t0[key := Entry(t0[key].impl, Public)] && !Wraps(r.world.table, id)
  {
    var e := t0[key].impl;
    var ak := AliasKey(lib, key);
    var acts := Repeated(key, args, viaSend, n);
    assert ak != key by { assert |AliasName(lib, key.name)| > |key.name|; }
    RunRepeated(lib, bodies, depth, w, key, args, viaSend, n);
    TimesCounted(bodies, depth, w, id, key, args, viaSend, n);
    var w1 := CallTimes(bodies, depth, w, key, args, viaSend, n).world;
    assert Quiet(w1, id, key) by {
      assert w1.registry == w.registry && w1.hooks == w.hooks && w1.universe == w.universe;
      assert forall j :: j in w.probes ==> Enabled(w1.probes[j]) == Enabled(w.probes[j]);
    }
    DisableRestores(lib, w1, id, key, e);
    InstallUndone(t0, key, id, AliasName(lib, key.name));
    var w2 := w1.(table := t0[key := Entry(e, Public)]);
    assert w1.table[key := Entry(e, Public)] - {ak} == w2.table;
    ScopedOk(lib, bodies, depth, w, id, name, acts, w1, w2);
    RestoredUnwrapped(t0, key, id, Public);
  }

  /**
   * The string a hook passes to `place_by_name` reads back, through
   * `parse_name`, as the owner's printed name, the kind and the member.
   */
  lemma EventNameParses(u: Universe, key: MethodKey)
    requires NoSep(key.name) && NoNewline(ModuleName(u, key.owner)) && NoNewline(key.name)
    ensures ParseName(EventName(u, key)) == Success(Target(ModuleName(u, key.owner), key.kind, key.name))
  {
    ParseDisplay(Target(ModuleName(u, key.owner), key.kind, key.name));
  }
}

=== FILE: registry.dfy ===
/**
 * The probe registry `probes`: a Ruby Hash from probe name to probe.  A Hash
 * remembers insertion order, and that order decides the order in which the
 * `included` hook enables probes, so the registry is an association list of
 * slots kept in insertion order.
 */
module Registry {
  import opened Base

  datatype Slot<V> = Slot(name: string, value: V)

  type Registry<V> = seq<Slot<V>>

  /** No name occurs in two slots. */
  predicate Distinct<V>(r: Registry<V>)
  {
    forall i, j :: 0 <= i < j < |r| ==> r[i].name != r[j].name
  }

  /** `probes[name]`: the value of the first slot named `name`, or `nil`. */
  function Lookup<V>(r: Registry<V>, name: string): (v: Option<V>)
    ensures v.None? <==> forall i :: 0 <= i < |r| ==> r[i].name != name
    ensures v.Some? ==> exists i :: 0 <= i < |r| && r[i] == Slot(name, v.value)
  {
    if |r| == 0 then None
    else if r[0].name == name then Some(r[0].value)
    else
      var v := Lookup(r[1..], name);
      assert forall i :: 1 <= i < |r| ==> r[i] == r[1..][i - 1];
      v
  }

  /**
   * `probes[name] = v`: an existing slot keeps its place and takes the new
   * value; a new name is appended.
   */
  function Store<V>(r: Registry<V>, name: string, v: V): (r': Registry<V>)
    ensures Lookup(r, name).None? ==> r' == r + [Slot(name, v)]
    ensures Lookup(r, name).Some? ==>
      |r'| == |r| && forall i :: 0 <= i < |r| ==> r'[i].name == r[i].name
  {
    if |r| == 0 then [Slot(name, v)]
    else if r[0].name == name then [Slot(name, v)] + r[1..]
    else [r[0]] + Store(r[1..], name, v)
  }

  /** `probes.delete(name)`: every slot named `name` goes, the rest keep their order. */
  function Delete<V>(r: Registry<V>, name: string): (r': Registry<V>)
    ensures |r'| <= |r|
    ensures forall i :: 0 <= i < |r'| ==> r'[i].name != name && r'[i] in r
    ensures forall j :: 0 <= j < |r| && r[j].name != name ==> r[j] in r'
  {
    if |r| == 0 then []
    else if r[0].name == name then Delete(r[1..], name)
    else [r[0]] + Delete(r[1..], name)
  }

  /** `probes.values`, in insertion order. */
  function Values<V>(r: Registry<V>): (vs: seq<V>)
    ensures |vs| == |r| && forall i :: 0 <= i < |r| ==> vs[i] == r[i].value
  {
    if |r| == 0 then [] else [r[0].value] + Values(r[1..])
  }

  /** The Hash as a map; the first slot of a name wins, as in `Lookup`. */
  ghost function AsMap<V>(r: Registry<V>): map<string, V>
  {
    if |r| == 0 then map[] else AsMap(r[1..])[r[0].name := r[0].value]
  }

  /** `Lookup` reads the map view. */
  lemma {:induction false} LookupAsMap<V>(r: Registry<V>, name: string)
    ensures Lookup(r, name) == if name in AsMap(r) then Some(AsMap(r)[name]) else None
  {
    if |r| > 0 && r[0].name != name {
      LookupAsMap(r[1..], name);
    }
  }

  /** After `probes[name] = v`, `name` maps to `v` and every other name is unchanged. */
  lemma {:induction false} StoreLookup<V>(r: Registry<V>, name: string, v: V, n: string)
    ensures Lookup(Store(r, name, v), n) == if n == name then Some(v) else Lookup(r, n)
  {
    if |r| > 0 && r[0].name != name {
      StoreLookup(r[1..], name, v, n);
      assert Store(r, name, v)[1..] == Store(r[1..], name, v);
    } else if |r| > 0 {
      assert Store(r, name, v)[1..] == r[1..];
    }
  }

  /** After `probes.delete(name)`, `name` is absent and every other name is unchanged. */
  lemma {:induction false} DeleteLookup<V>(r: Registry<V>, name: string, n: string)
    ensures Lookup(Delete(r, name), n) == if n == name then None else Lookup(r, n)
  {
    if |r| > 0 {
      DeleteLookup(r[1..], name, n);
      if r[0].name != name {
        assert Delete(r, name)[1..] == Delete(r[1..], name);
      }
    }
  }

  /** After storing, a name occurs exactly when it is the stored one or occurred before. */
  lemma {:induction false} StoreNames<V>(r: Registry<V>, name: string, v: V, n: string)
    ensures (exists i :: 0 <= i < |Store(r, name, v)| && Store(r, name, v)[i].name == n) <==>
            n == name || exists i :: 0 <= i < |r| && r[i].name == n
  {
    StoreLookup(r, name, v, n);
  }

  /** Storing keeps names distinct. */
  lemma {:induction false} StoreDistinct<V>(r: Registry<V>, name: string, v: V)
    requires Distinct(r)
    ensures Distinct(Store(r, name, v))
  {
    if |r| > 0 && r[0].name != name {
      StoreDistinct(r[1..], name, v);
      var s := Store(r, name, v);
      assert s[1..] == Store(r[1..], name, v);
      forall j | 1 <= j < |s|
        ensures s[0].name != s[j].name
      {
        StoreNames(r[1..], name, v, s[j].name);
        assert s[j].name == s[1..][j - 1].name;
      }
    }
  }

  /** Deleting keeps names distinct. */
  lemma {:induction false} DeleteDistinct<V>(r: Registry<V>, name: string)
    requires Distinct(r)
    ensures Distinct(Delete(r, name))
  {
    if |r| > 0 {
      DeleteDistinct(r[1..], name);
      if r[0].name != name {
        var d := Delete(r, name);
        assert d[1..] == Delete(r[1..], name);
        forall j | 1 <= j < |d|
          ensures d[0].name != d[j].name
        {
          DeleteLookup(r[1..], name, d[j].name);
          assert d[j] == d[1..][j - 1];
          assert Lookup(Delete(r[1..], name), d[j].name).Some?;
        }
      }
    }
  }

  /** `probes[name] = v` is the map update. */
  lemma StoreAsMap<V>(r: Registry<V>, name: string, v: V)
    ensures AsMap(Store(r, name, v)) == AsMap(r)[name := v]
  {
    var m := AsMap(Store(r, name, v));
    var m' := AsMap(r)[name := v];
    forall n
      ensures (n in m <==> n in m') && (n in m ==> m[n] == m'[n])
    {
      LookupAsMap(Store(r, name, v), n);
      LookupAsMap(r, n);
      StoreLookup(r, name, v, n);
    }
  }

  /** `probes.delete(name)` is the map removal. */
  lemma DeleteAsMap<V>(r: Registry<V>, name: string)
    ensures AsMap(Delete(r, name)) == AsMap(r) - {name}
  {
    var m := AsMap(Delete(r, name));
    var m' := AsMap(r) - {name};
    forall n
      ensures (n in m <==> n in m') && (n in m ==> m[n] == m'[n])
    {
      LookupAsMap(Delete(r, name), n);
      LookupAsMap(r, n);
      DeleteLookup(r, name, n);
    }
  }

  /** Registering a new name and deleting it again leaves the registry as it was. */
  lemma {:induction false} StoreDeleteFresh<V>(r: Registry<V>, name: string, v: V)
    requires Lookup(r, name).None?
    ensures Delete(Store(r, name, v), name) == r
  {
    if |r| > 0 {
      var st := Store(r[1..], name, v);
      assert r[0].name != name;
      assert Store(r, name, v) == [r[0]] + st;
      assert ([r[0]] + st)[1..] == st;
      StoreDeleteFresh(r[1..], name, v);
      assert r == [r[0]] + r[1..];
    }
  }

  /** Storing a name and deleting it again: the name is gone, every other name is as before. */
  lemma StoreThenDelete<V>(r: Registry<V>, name: string, v: V)
    ensures var d := Delete(Store(r, name, v), name);
            && Lookup(d, name).None?
            && (forall n :: n != name ==> Lookup(d, n) == Lookup(r, n))
            && (Lookup(r, name).None? ==> d == r)
  {
    var st := Store(r, name, v);
    forall n ensures Lookup(Delete(st, name), n) == if n == name then None else Lookup(r, n) {
      DeleteLookup(st, name, n);
      StoreLookup(r, name, v, n);
    }
    if Lookup(r, name).None? {
      StoreDeleteFresh(r, name, v);
    }
  }

  /** Every slot after storing is the stored one or was there before. */
  lemma {:induction false} StoreSlots<V>(r: Registry<V>, name: string, v: V)
    ensures forall i :: 0 <= i < |Store(r, name, v)| ==> Store(r, name, v)[i] == Slot(name, v) || Store(r, name, v)[i] in r
  {
    if |r| > 0 && r[0].name != name {
      StoreSlots(r[1..], name, v);
      var s := Store(r, name, v);
      forall i | 0 <= i < |s| ensures s[i] == Slot(name, v) || s[i] in r {
        if i > 0 {
          assert s[i] == Store(r[1..], name, v)[i - 1];
          assert Store(r[1..], name, v)[i - 1] in r[1..] ==> s[i] in r;
        }
      }
    } else if |r| > 0 {
      var s := Store(r, name, v);
      forall i | 0 <= i < |s| ensures s[i] == Slot(name, v) || s[i] in r {
        if i > 0 { assert s[i] == r[i]; }
      }
    }
  }

  /** Every slot left after deleting was there before. */
  lemma {:induction false} DeleteSlots<V>(r: Registry<V>, name: string)
    ensures forall i :: 0 <= i < |Delete(r, name)| ==> Delete(r, name)[i] in r
  {
    if |r| > 0 {
      DeleteSlots(r[1..], name);
      var d := Delete(r, name);
      var d1 := Delete(r[1..], name);
      forall i | 0 <= i < |d| ensures d[i] in r {
        if r[0].name == name {
          assert d[i] == d1[i] && d1[i] in r[1..];
        } else if i > 0 {
          assert d[i] == d1[i - 1] && d1[i - 1] in r[1..];
        }
      }
    }
  }
}

=== FILE: snail.dfy ===
/**
 * `lib/snail.rb`: the same lifecycle under the name Snail, with its own
 * vocabulary (`instrument` for `enable!`, `uninstrument` for `disable!`,
 * `placed?` for `enabled?`, `placeable?` for `ready?`) and alias slots
 * `__snail_original_<member>`.
 */
module Snail {
  import opened Base
  import opened Lifecycle
  import Frequent

  const Lib: Library := Library("__snail_original_")

  /**
   * Snail's `target_defined?`, which does not check for a missing owner
   * itself: on an unresolved owner `nil.method_defined?` raises.
   */
  function TargetDefinedChecked(w: World, p: Probe): (r: Result<bool, RubyError>)
    ensures r.Failure? <==> TargetKey(w.universe, p.target).None?
    ensures r.Success? ==> (r.value <==> TargetDefined(w, p))
  {
    match TargetKey(w.universe, p.target)
    case None => Failure(NoMethodError("method_defined?"))
    case Some(key) => Success(key in w.table)
  }

  /**
   * `placeable?`: not placed, the owner resolves, and the member is
   * defined; the owner check comes first, so `target_defined?` never
   * raises here, and the answer is Frequent's `ready?`.
   */
  function Placeable(w: World, p: Probe): (b: bool)
    ensures b == Ready(w, p)
  {
    !Enabled(p) && TargetKey(w.universe, p.target).Some? && TargetDefinedChecked(w, p) == Success(true)
  }

  /**
   * The two prefixes keep the alias slots apart: a Snail alias is never
   * the member itself, nor any Frequent alias.
   */
  lemma AliasesApart(m: string, m2: string)
    ensures AliasName(Lib, m) != m
    ensures AliasName(Lib, m) != AliasName(Frequent.Lib, m2)
  {
    assert AliasName(Lib, m)[2] == 's';
    assert AliasName(Frequent.Lib, m2)[2] == 'f';
  }
}

=== FILE: text.dfy ===
/** Ruby `String#split('::')` and its inverse, as used by `constantize`. */
module Text {

  /** True when `s` has the two-character scope separator `::` at index `i`. */
  predicate ScopeAt(s: string, i: int)
  {
    0 <= i && i + 1 < |s| && s[i] == ':' && s[i + 1] == ':'
  }

  /** True when `s` contains no `::`. */
  predicate ScopeFree(s: string)
  {
    forall i :: 0 <= i < |s| ==> !ScopeAt(s, i)
  }

  /** Joins pieces with `::` between them (Ruby `Array#join('::')`). */
  function Join(parts: seq<string>): string
    requires |parts| >= 1
    decreases |parts|
  {
    if |parts| == 1 then parts[0] else parts[0] + "::" + Join(parts[1..])
  }

  /**
   * Splits at every `::`, scanning left to right without overlap, and keeps
   * every field, trailing empty ones included.
   */
  function SplitScopes(s: string): (parts: seq<string>)
    ensures |parts| >= 1
    decreases |s|
  {
    if |s| < 2 then [s]
    else if ScopeAt(s, 0) then [""] + SplitScopes(s[2..])
    else
      var rest := SplitScopes(s[1..]);
      [[s[0]] + rest[0]] + rest[1..]
  }

  /** Prepending a character to the first piece prepends it to the join. */
  lemma JoinConsHead(c: char, parts: seq<string>)
    requires |parts| >= 1
    ensures Join([[c] + parts[0]] + parts[1..]) == [c] + Join(parts)
  {
    var ps := [[c] + parts[0]] + parts[1..];
    if |parts| > 1 {
      assert ps[1..] == parts[1..];
      assert Join(ps) == ([c] + parts[0]) + "::" + Join(parts[1..]);
    }
  }

  /** Splitting and re-joining gives back the original string. */
  lemma {:induction false} JoinSplitScopes(s: string)
    ensures Join(SplitScopes(s)) == s
    decreases |s|
  {
    if |s| < 2 {
    } else if ScopeAt(s, 0) {
      JoinSplitScopes(s[2..]);
      assert ([""] + SplitScopes(s[2..]))[1..] == SplitScopes(s[2..]);
      assert s == "::" + s[2..];
    } else {
      JoinSplitScopes(s[1..]);
      JoinConsHead(s[0], SplitScopes(s[1..]));
      assert s == [s[0]] + s[1..];
    }
  }

  /** No field produced by the split contains `::`. */
  lemma {:induction false} SplitScopesFieldsFree(s: string)
    ensures forall k :: 0 <= k < |SplitScopes(s)| ==> ScopeFree(SplitScopes(s)[k])
    decreases |s|
  {
    if |s| < 2 {
      assert forall i :: 0 <= i < |s| ==> !ScopeAt(s, i);
    } else if ScopeAt(s, 0) {
      SplitScopesFieldsFree(s[2..]);
      var rest := SplitScopes(s[2..]);
      assert SplitScopes(s) == [""] + rest;
      forall k | 0 <= k < |SplitScopes(s)|
        ensures ScopeFree(SplitScopes(s)[k])
      {
        if k > 0 { assert SplitScopes(s)[k] == rest[k - 1]; }
      }
    } else {
      SplitScopesFieldsFree(s[1..]);
      var rest := SplitScopes(s[1..]);
      var head := [s[0]] + rest[0];
      assert SplitScopes(s) == [head] + rest[1..];
      assert ScopeFree(rest[0]);
      forall i | 0 <= i < |head| ensures !ScopeAt(head, i)
      {
        if i == 0 && |rest[0]| >= 1 {
          // `s[0] s[1]` is not `::`, and `s[1]` is the first char of rest[0]
          var j := JoinSplitPrefix(s[1..]);
          assert head[1] == s[1];
        } else if i > 0 {
          assert ScopeAt(head, i) ==> ScopeAt(rest[0], i - 1);
        }
      }
      forall k | 0 <= k < |SplitScopes(s)|
        ensures ScopeFree(SplitScopes(s)[k])
      {
        if k > 0 { assert SplitScopes(s)[k] == rest[k]; }
      }
    }
  }

  /** The first field of a split is a prefix of the string. */
  lemma JoinSplitPrefix(s: string) returns (j: nat)
    ensures j == |SplitScopes(s)[0]| && j <= |s| && SplitScopes(s)[0] == s[..j]
  {
    JoinSplitScopes(s);
    var parts := SplitScopes(s);
    j := |parts[0]|;
    if |parts| > 1 {
      assert s == parts[0] + ("::" + Join(parts[1..]));
    }
    assert s[..j] == parts[0];
  }

  /** A string without `::` splits into itself alone. */
  lemma {:induction false} SplitScopeFree(s: string)
    requires ScopeFree(s)
    ensures SplitScopes(s) == [s]
    decreases |s|
  {
    if |s| >= 2 {
      assert !ScopeAt(s, 0);
      assert ScopeFree(s[1..]) by {
        forall i | 0 <= i < |s[1..]| ensures !ScopeAt(s[1..], i) {
          assert !ScopeAt(s, i + 1);
        }
      }
      SplitScopeFree(s[1..]);
      assert s == [s[0]] + s[1..];
    }
  }

  /** Drops the empty fields at the end, as Ruby's `split` does by default. */
  function DropTrailingEmpty(parts: seq<string>): (r: seq<string>)
    ensures |r| <= |parts| && r == parts[..|r|]
    ensures |r| > 0 ==> r[|r| - 1] != ""
    ensures forall k :: |r| <= k < |parts| ==> parts[k] == ""
    decreases |parts|
  {
    if |parts| == 0 then []
    else if parts[|parts| - 1] == "" then DropTrailingEmpty(parts[..|parts| - 1])
    else parts
  }

  /** A name without `::` is its own only field. */
  lemma SplitScopeFreeIf(s: string)
    ensures ScopeFree(s) ==> SplitScopes(s) == [s]
  {
    if ScopeFree(s) {
      SplitScopeFree(s);
    }
  }

  /** Ruby `name.split('::')`: every field, minus the trailing empty ones. */
  function RubySplitScopes(s: string): (r: seq<string>)
    ensures |r| <= |SplitScopes(s)| && r == SplitScopes(s)[..|r|]
    ensures |r| > 0 ==> r[|r| - 1] != ""
    ensures forall k :: |r| <= k < |SplitScopes(s)| ==> SplitScopes(s)[k] == ""
    ensures ScopeFree(s) && s != "" ==> r == [s]
  {
    SplitScopeFreeIf(s);
    DropTrailingEmpty(SplitScopes(s))
  }
}
